=== FILE: README.md ===
# CarClame remedy engine — a Dafny model

CarClame helps the buyer of a used car in Korea find the remedies still open
after a purchase. Given the purchase date, the mileage at purchase and now, and
the sales channel (개인, K Car, 엔카, 기타), it decides three things:

- liability insurance (책임보험), open for 30 days and 2,000 km;
- a dealer refund, open for 3 days at K Car and 7 days at 엔카;
- personal insurance (개인보험).

It also computes five deadline countdowns (D-30, 2,000 km, D-3, D-7, D-90)
and fills in default fact-check cards. Around this engine the project models:

- the `POST /api/match-remedy` request check and mileage normalisation;
- the confidence grading of a performance-record (성능점검기록부) analysis;
- the mapping of the engine's answer onto the diagnosis screen, including the
  parser that turns a photo summary like `[구제대상] 녹 / 부식 | [참고] 기스`
  into tagged findings;
- the two day-count helpers of the pages.

Modules, one per source file, plus two helpers:

| module | file | models |
|---|---|---|
| `Wrappers` | wrappers.dfy | `Option` and `Result` |
| `Text` | text.dfy | digits and numerals, JavaScript's `\s`, `trim`, `split`, `includes` |
| `TimeMileage` | time_mileage.dfy | src/lib/timeMileage.ts |
| `Rules` | rules.dfy | src/lib/rules.ts |
| `MatchRemedyRoute` | match_remedy_route.dfy | src/app/api/match-remedy/route.ts (validation and normalisation) |
| `OcrConfidence` | ocr_confidence.dfy | `calculateConfidence` and the failure record of src/lib/gemini.ts |
| `Diagnosis` | diagnosis.dfy | src/lib/mapApiToDiagnosis.ts, with the mock records of src/lib/mockData.ts |
| `Utils` | utils.dfy | `daysBetween` and `leftStr` of src/lib/utils.ts |

How the model represents things:

- "Today" is a parameter, so nothing reads a clock.
- A date is a calendar triple. Dates are compared and subtracted through a
  day number. Its closed form (365 days a year plus the Gregorian leap days)
  is proved equal to a year-by-year count, and to advance by exactly one
  from each day to the next.
- `parseLocalDate` relies on the JavaScript `Date` constructor rolling an
  out-of-range month or day over, and on it mapping years 0–99 to 1900–1999.
  The model states the same outcome directly: a date-shaped text is
  accepted exactly when its fields form a calendar date with a year of at
  least 100.
- The photo-summary regular expressions `/\[구제대상\]\s*([^|]+)/` and
  `/\[참고\]\s*(.+)/` are modelled with their real matching rules:
  - the leftmost occurrence of the mark wins;
  - `\s*` backtracks when the group would otherwise be empty;
  - the group stops at the first `|`, or at the first line terminator for `.`.
- Where the source builds a list by pushing items inside `forEach` loops (the
  photo findings), the model does the same in a method with a `while` loop.
  It is proved equal to a specification function, and the properties are
  proved about that function.

Where the product's stated intent and its code differ, the model follows the code:

- Personal insurance: the results screen is ready for the verdicts
  "손해 배상 권장", "손해 배상 가능추정", "증거 보완 필요" and "계약 확인 필요"
  (src/components/OptionsSection.tsx:27-34), but `evaluateAll` always
  answers "검토 필요" (src/lib/rules.ts:163-167), and so does the model.
- Flags: `evaluateAll` announces mismatch and warning flags but always
  returns an empty `flags` list (src/lib/rules.ts:172-173), and so does the
  model.

## Model

| member | source | states |
|---|---|---|
| `TimeMileage.ParseLocalDate` | src/lib/timeMileage.ts:7-15 | a date comes back exactly when the text has the shape `DDDD-DD-DD` and its fields form a calendar date with year ≥ 100; any date returned is such a date with at most four year digits |
| `TimeMileage.FormatThenParse` | src/lib/timeMileage.ts:7-15 | every date the parser can yield is read back from its own `YYYY-MM-DD` text |
| `TimeMileage.ParseThenFormat` | src/lib/timeMileage.ts:9-13 | a text the parser accepts is exactly the zero-padded text of the date it yields, so the accepted texts and the dates correspond one to one |
| `TimeMileage.ParseRejectsEmptyAndMisshaped` | src/lib/timeMileage.ts:8-10 | the empty text, `2024/01/05` and `2024-1-05` yield nothing |
| `TimeMileage.ParseRejectsMonth13` | src/lib/timeMileage.ts:11-13 | month 13 yields nothing |
| `TimeMileage.ParseRejectsFebruary30` | src/lib/timeMileage.ts:11-13 | February 30 yields nothing |
| `TimeMileage.ParseRejectsLeapDayOfCommonYear` | src/lib/timeMileage.ts:11-13 | February 29 of a common year yields nothing |
| `TimeMileage.ParseRejectsTwoDigitYear` | src/lib/timeMileage.ts:11-13 | year 0099 yields nothing, because the constructor reads it as 1999 |
| `TimeMileage.ParseAcceptsLeapDay` | src/lib/timeMileage.ts:11-14 | February 29 of a leap year is accepted as that date |
| `TimeMileage.DaysBeforeYearCounts` | src/lib/timeMileage.ts:31-35 | the closed-form count of days before a year equals adding up the lengths of all earlier years, leap years included |
| `TimeMileage.NextDayNumber` | src/lib/timeMileage.ts:31-35 | the day number grows by exactly one from each calendar day to the next, across month and year ends |
| `TimeMileage.DayNumber` | src/lib/timeMileage.ts:31-35 | the day number of a calendar date lies among the days of its own year: after every day of the earlier years and within its year's length |
| `TimeMileage.DayNumberOrdersDates` | src/lib/timeMileage.ts:25-29 | for calendar dates, a smaller day number means an earlier date by year, month and day, and equal numbers mean the same date, so comparing local midnights (`p > t`) compares dates |
| `TimeMileage.NormalizeDate` | src/lib/timeMileage.ts:25-29 | the result is a calendar date never after today; an unparseable text gives today; a parsed date is kept unless it is after today, in which case today is returned |
| `TimeMileage.DaysSince` | src/lib/timeMileage.ts:31-35 | never negative; 0 for an unparseable text and for a future date; otherwise today's day number minus the purchase date's |
| `TimeMileage.DaysSinceToday` | src/lib/timeMileage.ts:31-35 | today's own date is 0 days old |
| `TimeMileage.DaysSinceYesterday` | src/lib/timeMileage.ts:31-35 | the previous calendar day is 1 day old |
| `TimeMileage.DdayLabel` | src/lib/timeMileage.ts:37-40 | the label is `D-` exactly when elapsed ≤ target, followed by the distance between the two printed as a plain decimal numeral (no leading zero) |
| `TimeMileage.MileageDelta` | src/lib/timeMileage.ts:42-49 | nothing exactly when the purchase reading is missing; otherwise current − purchase when that is ≥ 0, else 0 |
| `TimeMileage.KmLeftLabel` | src/lib/timeMileage.ts:51-55 | `미입력` with no kilometres exactly when the distance is unknown; otherwise kilometres left = limit − used, labelled `남은 Nkm` or `초과 Nkm` with N the absolute value |
| `TimeMileage.DayWindow` | src/lib/timeMileage.ts:58-76 | days left = N − elapsed ≤ N; the label is the D-day label of N and elapsed and starts with `D-` exactly when days left ≥ 0 |
| `TimeMileage.Window2000km` | src/lib/timeMileage.ts:78-84 | the 2,000 km label of the distance driven; kilometres left is missing exactly when the purchase reading is, and never above 2,000 |
| `Rules.VerdictByDayKm` | src/lib/rules.ts:69-74 | each of the four labels is characterised in both directions: likely exactly when the period holds and the distance holds or is unknown; both, period or distance exceeded exactly for the failing criteria |
| `Rules.LabelTextsDistinct` | src/lib/rules.ts:69-74 | the five verdict strings are pairwise different, so the string carries the verdict |
| `Rules.KmPartDetermines` | src/lib/rules.ts:82-85 | two distance parts are equal only for the same distance (or both missing) |
| `Rules.BuildLiabilityReason` | src/lib/rules.ts:77-87 | the reason is exactly `구매 {elapsed}일 경과. ` followed by `구매 후 주행 {used}km` for a known distance or by `주행거리 미입력 → km 판정 제외` for a missing one, with nothing in between |
| `Rules.LiabilityReasonDetermines` | src/lib/rules.ts:77-87 | the reason `구매 {elapsed}일 경과. ` + distance part determines both the elapsed days and the distance |
| `Rules.EvaluateDealerRefund` | src/lib/rules.ts:90-121 | K Car and 엔카: likely exactly when elapsed ≤ 3 or 7, else period exceeded, with brand and window set and the fixed reason of that channel and verdict (`… 창구 대상 가능성` inside the window, `… 기간 초과` after); 개인 and 기타: "needs review" with no brand, no window and the fixed "not covered" reason |
| `Rules.DealerRefundBoundaries` | src/lib/rules.ts:94-115 | the windows are inclusive: day 3 and day 7 are in, days 4 and 8 are out |
| `Rules.LiabilityVerdict` | src/lib/rules.ts:152-158 | likely exactly when at most 30 days have passed and the distance is unknown or at most 2,000 km; period, distance or both exceeded exactly for the failing criteria; the reason is the liability reason of the same counts |
| `Rules.EvaluateAll` | src/lib/rules.ts:144-191 | for every input: empty flags, the default fact-check cards, personal insurance exactly the fixed "needs review" verdict with its reason; the liability verdict and the dealer refund of the elapsed days since purchase (and of the distance driven); the deadline blocks D-30, 2,000 km, D-3, D-7 and D-90 of the purchase date, each day window's days left at most its length, kilometres left at most 2,000 |
| `Rules.CurrentMileageUnusedWithoutPurchaseReading` | src/lib/rules.ts:150-158 | without a purchase reading the answer does not depend on the current mileage |
| `Rules.LiabilityTable` | src/lib/rules.ts:152-158 | the liability verdict as a full table over elapsed ≤ 30 and distance ≤ 2,000 (both thresholds inclusive, unknown distance never failing) |
| `Rules.MissingMileageNeverFailsDistance` | src/lib/rules.ts:150-158 | without a purchase reading the verdict is likely or period exceeded, and the reason says the distance was left out |
| `Rules.VerdictsAgreeWithDeadlines` | src/lib/rules.ts:145-161 | on one "today": the period holds exactly when D-30 has days left; the distance fails exactly when the 2,000 km block is overdrawn; kilometres left is missing exactly when the purchase reading is; a K Car or 엔카 refund is likely exactly when D-3 or D-7 has days left |
| `Rules.ScenarioTenDaysKCar` | src/lib/rules.ts:144-191 | bought at K Car on 2024-05-01 with 500 km driven, seen on 2024-05-11: liability likely, refund period exceeded, D-30 = 20, D-3 = −7, 1,500 km left |
| `Rules.ScenarioSameDayIndividual` | src/lib/rules.ts:144-191 | bought today from an individual with no distance driven: liability likely, refund and personal insurance "needs review", 30 days and 2,000 km left |
| `MatchRemedyRoute.ChannelOf` | src/app/api/match-remedy/route.ts:22-27 | a field is accepted as a channel only when it is the string naming that channel |
| `MatchRemedyRoute.IsValid` | src/app/api/match-remedy/route.ts:22-27 | valid exactly when the id and date are texts, the current mileage is a number or a text, and the channel is one of `개인`, `K Car`, `엔카`, `기타` |
| `MatchRemedyRoute.ChannelNamesAccepted` | src/app/api/match-remedy/route.ts:22-27 | each of the four channel names is accepted as its channel |
| `MatchRemedyRoute.ClampMileage` | src/app/api/match-remedy/route.ts:37 | the normalised mileage is never negative, keeps a non-negative value unchanged and turns a negative one into 0 |
| `MatchRemedyRoute.NumberOfText` | src/app/api/match-remedy/route.ts:37-41 | after trimming: a blank text reads as 0, a decimal numeral as its value, `-` or `+` before a numeral as the negated or plain value, and any other text as NaN (nothing) |
| `MatchRemedyRoute.ToNumber` | src/app/api/match-remedy/route.ts:37-41 | NaN exactly for an absent field, an array or object, or a text that is no numeral; a number is itself, `null` and `false` are 0, `true` is 1, a text reads as its numeral |
| `MatchRemedyRoute.PurchaseKm` | src/app/api/match-remedy/route.ts:38-41 | no purchase reading exactly when the field is absent, `null`, `''` or NaN (which the engine's `isNaN` check ignores); otherwise the number clamped at zero |
| `MatchRemedyRoute.NumberOfTextExample` | src/app/api/match-remedy/route.ts:37 | the text `"1500"` reads as 1500 |
| `MatchRemedyRoute.NormalizeRequest` | src/app/api/match-remedy/route.ts:11-51 | `bad_json` exactly for an unparseable body; `invalid_request` exactly for a body failing the validity test or with a NaN current mileage beside a purchase reading; an accepted body is valid and keeps its id, date, channel, OCR text and images; the current mileage is `Number()` of the field clamped at zero (0 for NaN); the purchase mileage is that of the field as read for the engine |
| `MatchRemedyRoute.Post` | src/app/api/match-remedy/route.ts:8-61 | status 200 exactly for an accepted request, with the engine's output on the normalised input; otherwise status 400 with the error code |
| `OcrConfidence.UnknownCount` | src/lib/gemini.ts:328-331 | between 0 and 5; 5 exactly when every category is "미확인", 0 exactly when none is |
| `OcrConfidence.CalculateConfidence` | src/lib/gemini.ts:322-354 | a failure text in the raw text gives retry whatever the categories; otherwise retry exactly for 5 unknown, low exactly for 3 or 4, high exactly for 0 to 2 |
| `OcrConfidence.UnknownCountMonotone` | src/lib/gemini.ts:328-331 | marking a category unknown never lowers the count, and raises it by one when it was not unknown |
| `OcrConfidence.UnknownNeverRaisesConfidence` | src/lib/gemini.ts:328-353 | with the raw text fixed, marking a category unknown never raises the confidence in the order retry < low < high |
| `OcrConfidence.MissingRawTextIsEmpty` | src/lib/gemini.ts:326 | a missing raw text grades like the empty text |
| `OcrConfidence.Graded` | src/lib/gemini.ts:252-257 | the parsed analysis unchanged except for its confidence, which is the grade of the analysis |
| `OcrConfidence.FailureRecordIsRetry` | src/lib/gemini.ts:259-271 | the failure record carries retry, and grading it (with or without its raw text) gives retry too |
| `Diagnosis.HistoryCard` | src/lib/mapApiToDiagnosis.ts:8-11 | the mock history with only the VIN changed: the form's VIN if non-empty, else the answer's history VIN, else the mock VIN |
| `Diagnosis.OrUnknown` | src/lib/mapApiToDiagnosis.ts:20-24 | a present non-empty category is kept; a missing or empty one reads "미확인" |
| `Diagnosis.CategoriesOf` | src/lib/mapApiToDiagnosis.ts:20-24 | each category keeps the analysis's non-empty text and reads "미확인" when it is missing, empty, or the analysis has no categories |
| `Diagnosis.OcrCard` | src/lib/mapApiToDiagnosis.ts:14-28 | the mock record when the answer has no analysis; otherwise the Gemini analysis if present, else the engine's: no-accident true only when given as true, the categories of that analysis as `CategoriesOf` reads them, its confidence kept when non-empty and "high" otherwise |
| `Diagnosis.EngineOcrCardShowsAllUnknownAsHigh` | src/lib/mapApiToDiagnosis.ts:14-28 | the engine's own `factCheck.ocr` card has no categories, so the screen shows all five unknown with confidence "high", where grading them gives retry |
| `Diagnosis.Flags` | src/lib/mapApiToDiagnosis.ts:62-64 | the answer's flags when it has an array, else none |
| `Diagnosis.Search` | src/lib/mapApiToDiagnosis.ts:35-46 | a captured group is non-empty and holds no stop character (the vertical bar for the critical group, a line terminator for the minor one) |
| `Diagnosis.CaptureOfSpacedRun` | src/lib/mapApiToDiagnosis.ts:35-46 | after the mark, whitespace then a run of non-stop characters starting with a non-space and ending at a stop or the end is captured exactly |
| `Diagnosis.SearchFindsFirstMark` | src/lib/mapApiToDiagnosis.ts:35-46 | the capture is taken at the leftmost occurrence of the mark |
| `Diagnosis.SplitPiecesClean` | src/lib/mapApiToDiagnosis.ts:37-48 | the `/`-pieces of a captured group hold neither `/` nor a stop character |
| `Diagnosis.TaggedItems` | src/lib/mapApiToDiagnosis.ts:37-42 | at most one item per piece |
| `Diagnosis.NoItemsExactlyWhenAllDropped` | src/lib/mapApiToDiagnosis.ts:37-42 | the pieces yield no item exactly when every piece, trimmed, is blank or the excluded text |
| `Diagnosis.TaggedItemsShape` | src/lib/mapApiToDiagnosis.ts:37-53 | every item is the tag followed by a trimmed, non-empty text that is not the excluded text and holds no `/` and no stop character |
| `Diagnosis.MarkedItems` | src/lib/mapApiToDiagnosis.ts:35-53 | no items without a group after the mark or when the group is exactly the excluded text; otherwise at most one item per `/`-piece of the group |
| `Diagnosis.MarkedItemsShape` | src/lib/mapApiToDiagnosis.ts:35-53 | every item is the tag followed by a trimmed, non-empty text that is not the excluded text and holds no `/` and no stop character of the group |
| `Diagnosis.PhotoFindings` | src/lib/mapApiToDiagnosis.ts:56-59 | never empty; exactly `["특이 사항 없음"]` when nothing was found, otherwise exactly the critical findings followed by the minor ones |
| `Diagnosis.PhotoFindingsShape` | src/lib/mapApiToDiagnosis.ts:35-59 | either the single "no findings" line, or all `[구제대상] ` items (none "해당 없음", none with a vertical bar) followed by all `[참고] ` items (none "특이사항 없음", each within one line) |
| `Diagnosis.ExcludedGroupYieldsNothing` | src/lib/mapApiToDiagnosis.ts:36-41 | a group that is exactly the excluded text yields no items through the per-piece check alone |
| `Diagnosis.WholeGroupCheckRedundant` | src/lib/mapApiToDiagnosis.ts:36-53 | the whole-group comparison before splitting changes nothing: the items equal those of the split group |
| `Diagnosis.NoneApplicableIsSinglePiece` | src/lib/mapApiToDiagnosis.ts:36-39 | "해당 없음" has no `/` and is its own trim, so the redundancy applies to the critical group |
| `Diagnosis.NothingNotableIsSinglePiece` | src/lib/mapApiToDiagnosis.ts:47-50 | "특이사항 없음" has no `/` and is its own trim, so the redundancy applies to the minor group |
| `Diagnosis.SamplePhotoFindings` | src/lib/mapApiToDiagnosis.ts:35-59 | the sample summary (critical `녹 / 부식`, then a vertical bar, then `[참고] 기스`) gives `[구제대상] 녹`, `[구제대상] 부식`, `[참고] 기스` in that order |
| `Diagnosis.PushTagged` | src/lib/mapApiToDiagnosis.ts:37-42 | one `forEach` loop appends exactly the tagged items of the pieces, in order, to the list so far |
| `Diagnosis.BuildPhotoFindings` | src/lib/mapApiToDiagnosis.ts:31-59 | the list built by the pushes equals the photo findings of the summary |
| `Diagnosis.MapApiToDiagnosis` | src/lib/mapApiToDiagnosis.ts:6-67 | the diagnosis record is the history card, the record card, the non-empty photo findings of the summary text and the flags |
| `Utils.DaysBetween` | src/lib/utils.ts:5-7 | nothing for an invalid date; otherwise the whole days n with n·86,400,000 ≤ b − a < (n+1)·86,400,000, negative exactly when b is before a |
| `Utils.DaysLeft` | src/lib/utils.ts:10-12 | the rounded-up day count n with (n−1)·86,400,000 < due − now ≤ n·86,400,000 |
| `Utils.LeftStr` | src/lib/utils.ts:9-17 | "—" exactly for an invalid date; `마감 지남 (N일)` once passed, `오늘 마감` exactly on a zero count, `N일 남음` before |
| `Utils.SameInstantIsZero` | src/lib/utils.ts:5-17 | the same instant gives 0 days between and `오늘 마감` |
| `Utils.DaysLeftIsNegatedDaysBetween` | src/lib/utils.ts:5-12 | the rounded-up count is the negated rounded-down count backwards, and exceeds the forward rounded-down count by one except on whole-day distances |
| `Text.Trim` | src/lib/mapApiToDiagnosis.ts:38 | the result neither starts nor ends with whitespace and is the middle of the text between a whitespace prefix and a whitespace suffix |
| `Text.TrimIdempotent` | src/lib/mapApiToDiagnosis.ts:38 | trimming a second time changes nothing |
| `Text.Split` | src/lib/mapApiToDiagnosis.ts:37 | at least one piece, no piece holds the separator, and joining the pieces with it gives the text back |
| `Text.NatToString` | src/lib/rules.ts:81 | the printed number is a decimal numeral without a leading zero that reads back as the number |

## Left out

- The AI calls (`analyzeCarImages`, `analyzeOcrText`, `analyzeDocumentImage`, `analyzeHistoryText`): network and model output. Their results are inputs; only the grading and the failure record are modelled.
- PDF generation, local storage, the React pages and components, and the locale formatter `fmt`: rendering and I/O.
- The wall clock (`todayLocal`): "today" is a parameter. Dates are day numbers, not local-midnight milliseconds, so daylight-saving shifts in `Math.floor((t - p) / DAY_MS)` are not modelled. The model also evaluates every date against one reading of today, while the source reads the clock twice in each `daysSince` (src/lib/timeMileage.ts:26 and :32) and calls it five times per answer (src/lib/rules.ts:146-153), ten readings in all. Across midnight, or across a change of time-zone offset, the source's `daysSince` can return −1, D-30 can show `D-31`, and the verdicts can disagree with the deadline blocks; `DaysSince` being never negative and `VerdictsAgreeWithDeadlines` hold for the single reading only.
- TimeMileage.MileageDelta: mileages are integers, so `Math.round` is not modelled. Its `isNaN` check on the purchase reading is modelled where the reading is made, in MatchRemedyRoute.PurchaseKm.
- MatchRemedyRoute.NumberOfText: texts with a fraction, an exponent, a hexadecimal prefix or `Infinity` read as NaN, where `Number()` gives a number; floating point is not part of this model.
- MatchRemedyRoute.ToNumber: `Number()` is modelled for numbers, booleans, `null`, blank texts and signed decimal numerals only. Fractions, exponents, hexadecimal texts and `Infinity` are not, and every array or object reads as NaN, although `Number([])` is 0 and `Number([7])` is 7.
- MatchRemedyRoute.NormalizeRequest: a NaN purchase mileage is read as no purchase reading, which is what the engine's `isNaN` check in `mileageDelta` makes of it, so the answer is the same. A NaN current mileage is read as 0 when there is no purchase reading; the answer is again the same, since the engine then never uses the current mileage. A NaN current mileage beside a purchase reading is answered 400 `invalid_request`. The source instead answers 200: its liability verdict says the distance was exceeded (`주행 초과` or `기간/주행 초과`, because `NaN <= 2000` is false), its reason prints `NaNkm`, and its 2,000 km block has `kmLeft` null (JSON for NaN) and the label `초과 NaNkm`. Floating point is not part of this model.
- MatchRemedyRoute.Post: the engine cannot throw in the model, so `bad_json` arises only from an unparseable body. The types of `ocrText` and `carImages` are taken as given, although the source passes them on unchecked.
- DDay.daysLeft is typed `number | null` in the source but never null; the model uses a plain integer.
- OcrConfidence.CalculateConfidence: an analysis without a `categories` object is not modelled. In the source it throws inside `analyzeDocumentImage` and ends in the failure record.
- Diagnosis.MapApiToDiagnosis: the answer is typed `any` in the source. A field of an unexpected type is not modelled: a non-string photo summary, non-string flags or categories, or a non-boolean no-accident mark. The intake form's uploaded files are not part of this model.
- Rider and flood logic, personal verdicts other than "검토 필요", and consistency flags: no modelled file implements them.

=== FILE: diagnosis.dfy ===
/**
 * `mapApiToDiagnosis`: turns the engine's JSON answer into the record the
 * diagnosis screen shows — the history card (mock data with the VIN
 * replaced), the record analysis with defaults, the photo findings parsed
 * from the photo summary text, and the flags.
 */
module Diagnosis {
  import opened Wrappers
  import opened Text
  import opened OcrConfidence

  // ---- Records shown on the diagnosis screen ----

  datatype Accident = Accident(kind: string, date: string, payout: int)

  /** The vehicle history card (`KahistoryData`). */
  datatype KahistoryData = KahistoryData(
    vin: string, accidents: seq<Accident>, specialUse: bool, theft: bool, writtenOff: bool)

  /** The record analysis shown (`OCRData`); the mock record has no confidence. */
  datatype OcrData = OcrData(noAccidentMarked: bool, categories: Categories, confidence: Option<string>)

  /** The intake form fields the mapping reads (uploaded files are not part of this model). */
  datatype FormData = FormData(
    vin: string, purchaseDate: string, mileage: int, purchaseMileage: Option<int>,
    channel: string, riders: Option<string>)

  datatype DiagnosisResult = DiagnosisResult(
    kahistory: KahistoryData, ocr: OcrData, photoFindings: seq<string>, flags: seq<string>)

  // ---- The API answer, as far as the mapping reads it ----

  /** Category texts of an analysis in the answer; none where missing. */
  datatype ApiCategories = ApiCategories(
    engine: Option<string>, mission: Option<string>, steering: Option<string>,
    brake: Option<string>, electric: Option<string>)
  {
    /** The `k`-th category text, in the order of `Categories.At`. */
    function At(k: nat): Option<string>
      requires k < 5
    {
      match k
      case 0 => engine
      case 1 => mission
      case 2 => steering
      case 3 => brake
      case _ => electric
    }
  }

  /** A record analysis in the answer; any of its fields may be missing. */
  datatype ApiOcr = ApiOcr(
    noAccidentMarked: Option<bool>, categories: Option<ApiCategories>, confidence: Option<string>)

  /**
   * The fields the mapping reads: `factCheck.history.vin`,
   * `geminiOcrResult`, `factCheck.ocr`, `factCheck.photo.summary` and `flags`
   * (present only when it is an array). A missing answer has every field missing.
   */
  datatype ApiResponse = ApiResponse(
    historyVin: Option<string>,
    geminiOcrResult: Option<ApiOcr>,
    factCheckOcr: Option<ApiOcr>,
    photoSummary: Option<string>,
    flags: Option<seq<string>>)

  // ---- Mock data ----

  const MOCK_KAHISTORY := KahistoryData(
    "KMHXX123456789000",
    [Accident("침수", "2024-07-12", 2300000), Accident("단순수리", "2023-12-01", 350000)],
    false, false, false)

  const MOCK_OCR := OcrData(
    true, Categories("정상", "정상", "정상", "정상", "점검요"), None)

  // ---- History card ----

  /**
   * The history card: the mock history with its VIN taken from the form when
   * the form has one, else from the answer's history, else the mock VIN.
   */
  function HistoryCard(api: ApiResponse, form: FormData): (k: KahistoryData)
    ensures k.(vin := MOCK_KAHISTORY.vin) == MOCK_KAHISTORY
    ensures form.vin != "" ==> k.vin == form.vin
    ensures form.vin == "" && api.historyVin.Some? ==> k.vin == api.historyVin.value
    ensures form.vin == "" && api.historyVin.None? ==> k.vin == MOCK_KAHISTORY.vin
  {
    var vin := if form.vin != "" then form.vin
               else match api.historyVin case Some(v) => v case None => MOCK_KAHISTORY.vin;
    MOCK_KAHISTORY.(vin := vin)
  }

  // ---- Record analysis ----

  /** `x || "미확인"`: a missing or empty category reads as unknown. */
  function OrUnknown(x: Option<string>): (s: string)
    ensures x.Some? && x.value != "" ==> s == x.value
    ensures x.None? || x.value == "" ==> s == UNKNOWN
  {
    match x
    case Some(v) => if v != "" then v else UNKNOWN
    case None => UNKNOWN
  }

  /**
   * The categories shown for an analysis: each category keeps its text when
   * the analysis has a non-empty one and reads as unknown otherwise.
   */
  function CategoriesOf(c: Option<ApiCategories>): (r: Categories)
    ensures forall k :: 0 <= k < 5 ==>
              r.At(k) == (if c.Some? && c.value.At(k).Some? && c.value.At(k).value != ""
                          then c.value.At(k).value else UNKNOWN)
  {
    match c
    case None => Categories(UNKNOWN, UNKNOWN, UNKNOWN, UNKNOWN, UNKNOWN)
    case Some(a) =>
      Categories(OrUnknown(a.engine), OrUnknown(a.mission), OrUnknown(a.steering),
                 OrUnknown(a.brake), OrUnknown(a.electric))
  }

  /**
   * The record analysis shown: the answer's `geminiOcrResult`, else its
   * `factCheck.ocr`, with defaults (no accident mark false, unknown
   * categories, confidence "high"); the mock record when the answer has
   * neither.
   */
  function OcrCard(api: ApiResponse): (o: OcrData)
    ensures api.geminiOcrResult.None? && api.factCheckOcr.None? ==> o == MOCK_OCR
    ensures api.geminiOcrResult.Some? || api.factCheckOcr.Some? ==>
              var g := if api.geminiOcrResult.Some? then api.geminiOcrResult.value
                       else api.factCheckOcr.value;
              (o.noAccidentMarked <==> g.noAccidentMarked == Some(true))
              && o.categories == CategoriesOf(g.categories)
              && (g.categories.None? ==> forall k :: 0 <= k < 5 ==> o.categories.At(k) == UNKNOWN)
              && (forall k :: 0 <= k < 5 ==> o.categories.At(k) != "")
              && o.confidence.Some? && o.confidence.value != ""
              && (g.confidence.Some? && g.confidence.value != "" ==> o.confidence == g.confidence)
              && (g.confidence.None? || g.confidence == Some("") ==> o.confidence == Some("high"))
  {
    var source := if api.geminiOcrResult.Some? then api.geminiOcrResult else api.factCheckOcr;
    match source
    case None => MOCK_OCR
    case Some(g) =>
      OcrData(
        match g.noAccidentMarked case Some(b) => b case None => false,
        CategoriesOf(g.categories),
        Some(match g.confidence case Some(c) => if c != "" then c else "high" case None => "high"))
  }

  /**
   * The engine's own `factCheck.ocr` card has no categories and no
   * confidence, so the screen shows every category unknown with confidence
   * "high", where grading those categories gives "retry".
   */
  lemma EngineOcrCardShowsAllUnknownAsHigh(api: ApiResponse)
    requires api.geminiOcrResult.None?
    requires api.factCheckOcr == Some(ApiOcr(None, None, None))
    ensures OcrCard(api).confidence == Some("high")
    ensures UnknownCount(OcrCard(api).categories) == 5
    ensures CalculateConfidence(OcrAnalysisResult(false, OcrCard(api).categories, None, None)) == Retry
  {
  }

  // ---- Flags ----

  /** `api.flags` when it is an array, else no flags. */
  function Flags(api: ApiResponse): (f: seq<string>)
    ensures api.flags.Some? ==> f == api.flags.value
    ensures api.flags.None? ==> f == []
  {
    match api.flags
    case Some(fs) => fs
    case None => []
  }

  // ---- Photo findings ----

  const CRITICAL_MARK := "[구제대상]"
  const MINOR_MARK := "[참고]"
  const CRITICAL_TAG := "[구제대상] "
  const MINOR_TAG := "[참고] "
  const NONE_APPLICABLE := "해당 없음"
  const NOTHING_NOTABLE := "특이사항 없음"
  const NO_FINDINGS := "특이 사항 없음"

  /**
   * Which characters end a captured group: `|` for `([^|]+)`, a line
   * terminator for `(.+)`.
   */
  datatype Stop = Bar | LineEnd

  predicate IsStop(st: Stop, c: char)
  {
    match st
    case Bar => c == '|'
    case LineEnd => IsLineTerminator(c)
  }

  /** `s` holds no stop character. */
  predicate NoStop(s: string, st: Stop)
  {
    forall i :: 0 <= i < |s| ==> !IsStop(st, s[i])
  }

  /** The first position at or after `p` holding a stop character, or the end. */
  function RunEnd(s: string, p: nat, st: Stop): (e: nat)
    requires p <= |s|
    ensures p <= e <= |s|
    ensures forall i :: p <= i < e ==> !IsStop(st, s[i])
    ensures e < |s| ==> IsStop(st, s[e])
    decreases |s| - p
  {
    if p == |s| || IsStop(st, s[p]) then p else RunEnd(s, p + 1, st)
  }

  /**
   * The group of `\s*(G+)` when `\s*` has matched up to position `p` and may
   * give back characters down to `j`: the first position, from `p` back
   * towards `j`, where `G+` can start, and the longest run from there.
   */
  function Backtrack(s: string, j: nat, p: nat, st: Stop): (g: Option<string>)
    requires j <= p <= |s|
    ensures g.Some? ==> |g.value| > 0 && NoStop(g.value, st)
    decreases p - j
  {
    if p < |s| && !IsStop(st, s[p]) then Some(s[p..RunEnd(s, p, st)])
    else if p == j then None
    else Backtrack(s, j, p - 1, st)
  }

  /** The group of `\s*(G+)` matched at position `j`, if it matches there. */
  function CaptureAt(s: string, j: nat, st: Stop): (g: Option<string>)
    requires j <= |s|
    ensures g.Some? ==> |g.value| > 0 && NoStop(g.value, st)
  {
    Backtrack(s, j, j + LeadingSpaces(s[j..]), st)
  }

  /**
   * `s.match(/MARK\s*(G+)/)[1]`: the group at the leftmost occurrence of the
   * mark, from position `from` on, after which the rest of the pattern matches.
   */
  function Search(s: string, mark: string, from: nat, st: Stop): (g: Option<string>)
    requires from <= |s|
    ensures g.Some? ==> |g.value| > 0 && NoStop(g.value, st)
    decreases |s| - from
  {
    if OccursAt(s, mark, from) && CaptureAt(s, from + |mark|, st).Some? then
      CaptureAt(s, from + |mark|, st)
    else if from == |s| then None
    else Search(s, mark, from + 1, st)
  }

  /**
   * At position `j`, whitespace `sp` followed by a run `g` of non-stop
   * characters that starts with a non-space and ends at a stop character or
   * at the end: the pattern captures exactly `g`.
   */
  lemma CaptureOfSpacedRun(s: string, j: nat, sp: string, g: string, st: Stop)
    requires j + |sp| + |g| <= |s|
    requires s[j..j + |sp|] == sp && AllSpace(sp)
    requires s[j + |sp|..j + |sp| + |g|] == g && g != [] && !IsSpace(g[0]) && NoStop(g, st)
    requires j + |sp| + |g| == |s| || IsStop(st, s[j + |sp| + |g|])
    ensures CaptureAt(s, j, st) == Some(g)
  {
    var p, e := j + |sp|, j + |sp| + |g|;
    assert s[j..] == sp + s[p..];
    assert s[p] == g[0];
    LeadingSpacesOfPrefix(sp, s[p..]);
    assert forall i :: p <= i < e ==> s[i] == g[i - p];
    assert RunEnd(s, p, st) == e;
  }

  /**
   * The search reports the capture at the leftmost occurrence of the mark
   * after which the group matches, skipping earlier positions.
   */
  lemma {:induction false} SearchFindsFirstMark(s: string, mark: string, from: nat, k: nat, st: Stop)
    requires from <= k && OccursAt(s, mark, k)
    requires forall i :: from <= i < k ==> !OccursAt(s, mark, i)
    requires CaptureAt(s, k + |mark|, st).Some?
    ensures Search(s, mark, from, st) == CaptureAt(s, k + |mark|, st)
    decreases k - from
  {
    if from < k {
      SearchFindsFirstMark(s, mark, from + 1, k, st);
    }
  }

  /** `tag + trimmed` for a piece that is not blank and not the excluded text; nothing otherwise. */
  function TagPiece(piece: string, excluded: string, tag: string): seq<string>
  {
    var t := Trim(piece);
    if t != [] && t != excluded then [tag + t] else []
  }

  /** A finding produced from one piece: the tag, then a trimmed, non-empty text that is not excluded. */
  predicate IsTaggedItem(x: string, tag: string, excluded: string, st: Stop)
  {
    |tag| < |x| && x[..|tag|] == tag
    && var t := x[|tag|..];
       Trim(t) == t && t != excluded && '/' !in t && NoStop(t, st)
  }

  /**
   * The findings of the pieces, in order: each piece trimmed, blank and
   * excluded pieces dropped, the rest tagged.
   */
  function TaggedItems(pieces: seq<string>, excluded: string, tag: string): (r: seq<string>)
    ensures |r| <= |pieces|
  {
    if pieces == [] then []
    else TaggedItems(pieces[..|pieces| - 1], excluded, tag)
         + TagPiece(pieces[|pieces| - 1], excluded, tag)
  }

  /** The pieces yield no item exactly when every one of them is dropped. */
  lemma {:induction false} NoItemsExactlyWhenAllDropped(pieces: seq<string>, excluded: string, tag: string)
    ensures TaggedItems(pieces, excluded, tag) == [] <==> AllDropped(pieces, excluded)
  {
    if pieces != [] {
      var init, last := pieces[..|pieces| - 1], pieces[|pieces| - 1];
      assert pieces == init + [last];
      AllDroppedSnoc(init, last, excluded);
      NoItemsExactlyWhenAllDropped(init, excluded, tag);
    }
  }

  /** Whether every piece is blank or the excluded text once trimmed. */
  predicate AllDropped(pieces: seq<string>, excluded: string)
  {
    forall k :: 0 <= k < |pieces| ==> Trim(pieces[k]) == [] || Trim(pieces[k]) == excluded
  }

  lemma AllDroppedSnoc(init: seq<string>, last: string, excluded: string)
    ensures AllDropped(init + [last], excluded)
            <==> AllDropped(init, excluded) && (Trim(last) == [] || Trim(last) == excluded)
  {
    var ps := init + [last];
    assert ps[|init|] == last;
    assert forall k :: 0 <= k < |init| ==> ps[k] == init[k];
  }

  /** Pieces of a captured group: free of `/` and of the group's stop characters. */
  predicate CleanPieces(pieces: seq<string>, st: Stop)
  {
    forall k :: 0 <= k < |pieces| ==> '/' !in pieces[k] && NoStop(pieces[k], st)
  }

  lemma {:induction false} TaggedItemsShape(pieces: seq<string>, excluded: string, tag: string, st: Stop)
    requires CleanPieces(pieces, st)
    ensures forall x :: x in TaggedItems(pieces, excluded, tag) ==> IsTaggedItem(x, tag, excluded, st)
  {
    if pieces != [] {
      var init, last := pieces[..|pieces| - 1], pieces[|pieces| - 1];
      assert CleanPieces(init, st) by {
        forall k | 0 <= k < |init| ensures '/' !in init[k] && NoStop(init[k], st) {
          assert init[k] == pieces[k];
        }
      }
      TaggedItemsShape(init, excluded, tag, st);
      TagPieceShape(last, excluded, tag, st);
      assert TaggedItems(pieces, excluded, tag) == TaggedItems(init, excluded, tag) + TagPiece(last, excluded, tag);
    }
  }

  /** The finding of one clean piece, if any, has the tagged-item shape. */
  lemma TagPieceShape(piece: string, excluded: string, tag: string, st: Stop)
    requires '/' !in piece && NoStop(piece, st)
    ensures forall x :: x in TagPiece(piece, excluded, tag) ==> IsTaggedItem(x, tag, excluded, st)
  {
    var t := Trim(piece);
    if t != [] && t != excluded {
      TrimIdempotent(piece);
      var k := LeadingSpaces(piece);
      assert t == piece[k..k + |t|];
      assert forall i :: 0 <= i < |t| ==> t[i] == piece[k + i];
      DropAppend(tag, t);
      assert IsTaggedItem(tag + t, tag, excluded, st);
    }
  }

  /** The pieces of a group split on `/` carry no stop character of the group. */
  lemma {:induction false} SplitPiecesClean(g: string, st: Stop)
    requires NoStop(g, st)
    ensures CleanPieces(Split(g, '/'), st)
    decreases |g|
  {
    if '/' in g {
      var i := IndexOf(g, '/');
      var head, rest := g[..i], g[i + 1..];
      assert NoStop(rest, st) by {
        forall k | 0 <= k < |rest| ensures !IsStop(st, rest[k]) {
          assert rest[k] == g[i + 1 + k];
        }
      }
      assert NoStop(head, st) by {
        forall k | 0 <= k < |head| ensures !IsStop(st, head[k]) {
          assert head[k] == g[k];
        }
      }
      SplitPiecesClean(rest, st);
      var ps, tail := Split(g, '/'), Split(rest, '/');
      assert ps == [head] + tail;
      forall k | 0 <= k < |ps| ensures '/' !in ps[k] && NoStop(ps[k], st) {
        if k > 0 {
          assert ps[k] == tail[k - 1];
        }
      }
    } else {
      assert Split(g, '/') == [g];
    }
  }

  /**
   * The items parsed from the group after `mark`: none when there is no such
   * group, and otherwise tagged items free of `/` and of the group's stop
   * characters.
   */
  function MarkedItems(summary: string, mark: string, st: Stop, excluded: string, tag: string): (r: seq<string>)
    ensures Search(summary, mark, 0, st).None? ==> r == []
    ensures Search(summary, mark, 0, st) == Some(excluded) ==> r == []
    ensures Search(summary, mark, 0, st).Some? ==> |r| <= |Split(Search(summary, mark, 0, st).value, '/')|
  {
    match Search(summary, mark, 0, st)
    case None => []
    case Some(g) => if g == excluded then [] else TaggedItems(Split(g, '/'), excluded, tag)
  }

  /** The `[구제대상]` findings: up to the first `|`, split on `/`. */
  function CriticalFindings(summary: string): seq<string>
  {
    MarkedItems(summary, CRITICAL_MARK, Bar, NONE_APPLICABLE, CRITICAL_TAG)
  }

  /** The `[참고]` findings: up to the end of the line, split on `/`. */
  function MinorFindings(summary: string): seq<string>
  {
    MarkedItems(summary, MINOR_MARK, LineEnd, NOTHING_NOTABLE, MINOR_TAG)
  }

  /**
   * The photo findings of a summary text: the critical findings, then the
   * minor ones, or the single "no findings" line when there are none.
   */
  function PhotoFindings(summary: string): (r: seq<string>)
    ensures |r| >= 1
    ensures CriticalFindings(summary) + MinorFindings(summary) == [] ==> r == [NO_FINDINGS]
    ensures CriticalFindings(summary) + MinorFindings(summary) != [] ==>
              r == CriticalFindings(summary) + MinorFindings(summary)
  {
    var found := CriticalFindings(summary) + MinorFindings(summary);
    if found == [] then [NO_FINDINGS] else found
  }

  /**
   * Every critical finding is `[구제대상] ` and a trimmed, non-empty text
   * other than "해당 없음" without `/` or `|`; every minor finding is
   * `[참고] ` and a trimmed, non-empty text other than "특이사항 없음" within
   * one line; and all critical findings come before all minor ones.
   */
  lemma PhotoFindingsShape(summary: string)
    ensures var r := PhotoFindings(summary);
            var c := |CriticalFindings(summary)|;
            r == [NO_FINDINGS]
            || ((forall i :: 0 <= i < c ==> IsTaggedItem(r[i], CRITICAL_TAG, NONE_APPLICABLE, Bar))
                && (forall i :: c <= i < |r| ==> IsTaggedItem(r[i], MINOR_TAG, NOTHING_NOTABLE, LineEnd)))
  {
    var cs, ms := CriticalFindings(summary), MinorFindings(summary);
    MarkedItemsShape(summary, CRITICAL_MARK, Bar, NONE_APPLICABLE, CRITICAL_TAG);
    MarkedItemsShape(summary, MINOR_MARK, LineEnd, NOTHING_NOTABLE, MINOR_TAG);
    ConcatShape(cs, ms, CRITICAL_TAG, NONE_APPLICABLE, Bar, MINOR_TAG, NOTHING_NOTABLE, LineEnd);
  }

  lemma MarkedItemsShape(summary: string, mark: string, st: Stop, excluded: string, tag: string)
    ensures forall x :: x in MarkedItems(summary, mark, st, excluded, tag) ==> IsTaggedItem(x, tag, excluded, st)
  {
    match Search(summary, mark, 0, st)
    case None =>
    case Some(g) =>
      SplitPiecesClean(g, st);
      TaggedItemsShape(Split(g, '/'), excluded, tag, st);
  }

  lemma ConcatShape(cs: seq<string>, ms: seq<string>, ctag: string, cex: string, cst: Stop,
                    mtag: string, mex: string, mst: Stop)
    requires forall x :: x in cs ==> IsTaggedItem(x, ctag, cex, cst)
    requires forall x :: x in ms ==> IsTaggedItem(x, mtag, mex, mst)
    ensures forall i :: 0 <= i < |cs| ==> IsTaggedItem((cs + ms)[i], ctag, cex, cst)
    ensures forall i :: |cs| <= i < |cs + ms| ==> IsTaggedItem((cs + ms)[i], mtag, mex, mst)
  {
    forall i | 0 <= i < |cs|
      ensures IsTaggedItem((cs + ms)[i], ctag, cex, cst)
    {
      assert (cs + ms)[i] == cs[i] && cs[i] in cs;
    }
    forall i | |cs| <= i < |cs + ms|
      ensures IsTaggedItem((cs + ms)[i], mtag, mex, mst)
    {
      assert (cs + ms)[i] == ms[i - |cs|] && ms[i - |cs|] in ms;
    }
  }

  /** A group that is exactly the excluded text yields no items. */
  lemma ExcludedGroupYieldsNothing(excluded: string, tag: string)
    requires '/' !in excluded && Trim(excluded) == excluded
    ensures TaggedItems(Split(excluded, '/'), excluded, tag) == []
  {
    assert Split(excluded, '/') == [excluded];
    assert [excluded][..0] == [];
  }

  /**
   * Comparing the whole group with the excluded text before splitting
   * changes nothing: such a group yields one piece, which is dropped anyway.
   */
  lemma WholeGroupCheckRedundant(summary: string, mark: string, st: Stop, excluded: string, tag: string, g: string)
    requires Search(summary, mark, 0, st) == Some(g)
    requires '/' !in excluded && Trim(excluded) == excluded
    ensures MarkedItems(summary, mark, st, excluded, tag) == TaggedItems(Split(g, '/'), excluded, tag)
  {
    if g == excluded {
      ExcludedGroupYieldsNothing(excluded, tag);
    }
  }

  /** "해당 없음" is a single trimmed piece, so the critical group's whole-group check is redundant. */
  lemma NoneApplicableIsSinglePiece()
    ensures '/' !in NONE_APPLICABLE && Trim(NONE_APPLICABLE) == NONE_APPLICABLE
  {
    TrimOfTrimmed(NONE_APPLICABLE);
  }

  /** "특이사항 없음" is a single trimmed piece, so the minor group's whole-group check is redundant. */
  lemma NothingNotableIsSinglePiece()
    ensures '/' !in NOTHING_NOTABLE && Trim(NOTHING_NOTABLE) == NOTHING_NOTABLE
  {
    TrimOfTrimmed(NOTHING_NOTABLE);
  }

  // ---- A worked example ----

  /** A photo summary with two critical findings and one minor finding. */
  const SAMPLE := "[구제대상] 녹 / 부식 | [참고] 기스"

  /** The critical group runs from after the mark and its space up to the `|`. */
  lemma SampleCriticalGroup()
    ensures Search(SAMPLE, CRITICAL_MARK, 0, Bar) == Some("녹 / 부식 ")
  {
    var s := SAMPLE;
    assert OccursAt(s, CRITICAL_MARK, 0);
    assert s[6..7] == " " && s[7..14] == "녹 / 부식 " && s[14] == '|';
    CaptureOfSpacedRun(s, 6, " ", "녹 / 부식 ", Bar);
    SearchFindsFirstMark(s, CRITICAL_MARK, 0, 0, Bar);
  }

  /** The minor group is found at the second mark and runs to the end of the text. */
  lemma SampleMinorGroup()
    ensures Search(SAMPLE, MINOR_MARK, 0, LineEnd) == Some("기스")
  {
    var s := SAMPLE;
    assert OccursAt(s, MINOR_MARK, 16);
    assert forall i :: 0 <= i < 16 ==> !OccursAt(s, MINOR_MARK, i) by {
      forall i | 0 <= i < 16 ensures !OccursAt(s, MINOR_MARK, i) {
        assert s[i] != '[' || s[i + 1] != '참';
        assert s[i..i + 4][0] == s[i] && s[i..i + 4][1] == s[i + 1];
      }
    }
    assert s[20..21] == " " && s[21..23] == "기스" && |s| == 23;
    CaptureOfSpacedRun(s, 20, " ", "기스", LineEnd);
    SearchFindsFirstMark(s, MINOR_MARK, 0, 16, LineEnd);
  }

  lemma SampleFirstPiece()
    ensures TagPiece("녹 ", NONE_APPLICABLE, CRITICAL_TAG) == ["[구제대상] 녹"]
  {
    assert LeadingSpaces("녹 ") == 0;
    assert ContentEnd("녹 ") == 1;
    assert Trim("녹 ") == "녹";
    assert |NONE_APPLICABLE| == 5;
    assert CRITICAL_TAG + "녹" == "[구제대상] 녹";
  }

  lemma SampleSecondPiece()
    ensures TagPiece(" 부식 ", NONE_APPLICABLE, CRITICAL_TAG) == ["[구제대상] 부식"]
  {
    assert LeadingSpaces(" 부식 "[1..]) == 0;
    assert LeadingSpaces(" 부식 ") == 1;
    assert ContentEnd(" 부식 "[1..]) == 2;
    assert Trim(" 부식 ") == "부식";
    assert |NONE_APPLICABLE| == 5;
    assert CRITICAL_TAG + "부식" == "[구제대상] 부식";
  }
  lemma SampleCriticalPieces()
    ensures Split("녹 / 부식 ", '/') == ["녹 ", " 부식 "]
  {
    var g := "녹 / 부식 ";
    assert IndexOf(g, '/') == 2;
    assert g[..2] == "녹 " && g[3..] == " 부식 ";
    assert '/' !in " 부식 ";
    assert Split(" 부식 ", '/') == [" 부식 "];
  }

  lemma SampleMinorPiece()
    ensures Split("기스", '/') == ["기스"]
    ensures TagPiece("기스", NOTHING_NOTABLE, MINOR_TAG) == ["[참고] 기스"]
  {
    TrimOfTrimmed("기스");
    assert |NOTHING_NOTABLE| == 7;
    assert MINOR_TAG + "기스" == "[참고] 기스";
  }

  lemma SampleCriticalItems()
    ensures TaggedItems(["녹 ", " 부식 "], NONE_APPLICABLE, CRITICAL_TAG) == ["[구제대상] 녹", "[구제대상] 부식"]
  {
    SampleFirstPiece();
    SampleSecondPiece();
    var ps := ["녹 ", " 부식 "];
    assert ps[..1] == ["녹 "] && ps[..1][..0] == [];
    assert TaggedItems(ps[..1], NONE_APPLICABLE, CRITICAL_TAG) == ["[구제대상] 녹"];
  }

  lemma SampleCritical()
    ensures CriticalFindings(SAMPLE) == ["[구제대상] 녹", "[구제대상] 부식"]
  {
    SampleCriticalGroup();
    SampleCriticalPieces();
    SampleCriticalItems();
    assert |"녹 / 부식 "| != |NONE_APPLICABLE|;
  }

  lemma SampleMinor()
    ensures MinorFindings(SAMPLE) == ["[참고] 기스"]
  {
    SampleMinorGroup();
    SampleMinorPiece();
    assert ["기스"][..0] == [];
  }

  /**
   * The summary `[구제대상] 녹 / 부식 | [참고] 기스` gives the two critical
   * findings, trimmed and tagged in order, then the minor one.
   */
  lemma SamplePhotoFindings()
    ensures PhotoFindings(SAMPLE) == ["[구제대상] 녹", "[구제대상] 부식", "[참고] 기스"]
  {
    SampleCritical();
    SampleMinor();
  }

  /**
   * One `forEach` over the pieces: each trimmed piece that is not blank and
   * not the excluded text is pushed with its tag.
   */
  method PushTagged(findings: seq<string>, pieces: seq<string>, excluded: string, tag: string)
    returns (out: seq<string>)
    ensures out == findings + TaggedItems(pieces, excluded, tag)
  {
    out := findings;
    var i := 0;
    while i < |pieces|
      invariant 0 <= i <= |pieces|
      invariant out == findings + TaggedItems(pieces[..i], excluded, tag)
    {
      var trimmed := Trim(pieces[i]);
      PushStep(findings, out, pieces, i, excluded, tag);
      if trimmed != [] && trimmed != excluded {
        out := out + [tag + trimmed];
      }
      i := i + 1;
    }
    assert pieces[..i] == pieces;
  }

  /** One more piece pushes its own finding, if any, at the end. */
  lemma PushStep(findings: seq<string>, out: seq<string>, pieces: seq<string>, i: nat,
                 excluded: string, tag: string)
    requires i < |pieces|
    requires out == findings + TaggedItems(pieces[..i], excluded, tag)
    ensures var t := Trim(pieces[i]);
            (if t != [] && t != excluded then out + [tag + t] else out)
              == findings + TaggedItems(pieces[..i + 1], excluded, tag)
  {
    assert pieces[..i + 1][..i] == pieces[..i];
    var before := TaggedItems(pieces[..i], excluded, tag);
    assert TaggedItems(pieces[..i + 1], excluded, tag) == before + TagPiece(pieces[i], excluded, tag);
  }

  /**
   * The photo findings built as the source builds them: a list that each
   * piece of the critical group, then each piece of the minor group, may be
   * pushed onto, with the "no findings" line pushed when it stays empty.
   */
  method BuildPhotoFindings(summary: string) returns (findings: seq<string>)
    ensures findings == PhotoFindings(summary)
  {
    findings := [];
    var critical := Search(summary, CRITICAL_MARK, 0, Bar);
    if critical.Some? && critical.value != NONE_APPLICABLE {
      findings := PushTagged(findings, Split(critical.value, '/'), NONE_APPLICABLE, CRITICAL_TAG);
    }
    assert findings == CriticalFindings(summary);
    var minor := Search(summary, MINOR_MARK, 0, LineEnd);
    if minor.Some? && minor.value != NOTHING_NOTABLE {
      findings := PushTagged(findings, Split(minor.value, '/'), NOTHING_NOTABLE, MINOR_TAG);
    }
    assert findings == CriticalFindings(summary) + MinorFindings(summary);
    if |findings| == 0 {
      findings := findings + [NO_FINDINGS];
    }
  }

  /** The summary text: `factCheck.photo.summary`, or empty. */
  function PhotoSummary(api: ApiResponse): string
  {
    match api.photoSummary
    case Some(s) => s
    case None => ""
  }

  /** `mapApiToDiagnosis`: the diagnosis record for an API answer and the intake form. */
  method MapApiToDiagnosis(api: ApiResponse, form: FormData) returns (r: DiagnosisResult)
    ensures r.kahistory == HistoryCard(api, form)
    ensures r.ocr == OcrCard(api)
    ensures r.photoFindings == PhotoFindings(PhotoSummary(api))
    ensures |r.photoFindings| >= 1
    ensures r.flags == Flags(api)
  {
    var kahistory := HistoryCard(api, form);
    var ocr := OcrCard(api);
    var photoFindings := BuildPhotoFindings(PhotoSummary(api));
    var flags := Flags(api);
    r := DiagnosisResult(kahistory, ocr, photoFindings, flags);
  }
}

=== FILE: match_remedy_route.dfy ===
/**
 * The `POST /api/match-remedy` handler in front of the engine: it checks the
 * required fields, normalises the mileages to non-negative integers, runs the
 * engine and maps failures to the error codes `invalid_request` and `bad_json`.
 */
module MatchRemedyRoute {
  import opened Wrappers
  import opened Text
  import opened TimeMileage
  import opened Rules

  /**
   * A field of the parsed JSON body. `Undefined` is a field the body does not
   * have; `Composite` is an array or an object.
   */
  datatype JsValue = Undefined | Null | Bool(b: bool) | Num(n: int) | Str(s: string) | Composite

  /**
   * The request body. `Malformed` is a body that `req.json()` cannot parse. A
   * body that parses to `null` or to a value without these fields destructures
   * to `Undefined` everywhere.
   */
  datatype RequestBody =
    | Malformed
    | Body(
        vehicleId: JsValue,
        purchaseDate: JsValue,
        currentMileage: JsValue,
        purchaseMileage: JsValue,
        purchaseChannel: JsValue,
        ocrText: Option<string>,          // passed on unchecked
        carImages: Option<seq<string>>)   // passed on unchecked

  datatype ErrorCode = InvalidRequest | BadJson
  {
    /** The `error` field of the 400 response. */
    function Code(): string
    {
      match this
      case InvalidRequest => "invalid_request"
      case BadJson => "bad_json"
    }

    /** The `message` field of the 400 response. */
    function Message(): string
    {
      match this
      case InvalidRequest =>
        "필수 필드(vehicleId, purchaseDate, currentMileage, purchaseChannel)를 확인하세요."
      case BadJson => "JSON 본문을 확인하세요."
    }
  }

  datatype ResponseBody = Evaluation(output: MatchRemedyOutput) | Error(error: ErrorCode)

  datatype Response = Response(status: int, body: ResponseBody)

  /** `channels.includes(purchaseChannel)`: the channel a field names, if it names one. */
  function ChannelOf(v: JsValue): (c: Option<Channel>)
    ensures c.Some? ==> v == Str(ChannelName(c.value))
  {
    if v == Str("개인") then Some(Individual)
    else if v == Str("K Car") then Some(KCar)
    else if v == Str("엔카") then Some(Encar)
    else if v == Str("기타") then Some(Other)
    else None
  }

  /** Every channel is accepted under its own name. */
  lemma ChannelNamesAccepted(c: Channel)
    ensures ChannelOf(Str(ChannelName(c))) == Some(c)
  {
  }

  /** The channels the handler accepts, by name. */
  const CHANNELS := ["개인", "K Car", "엔카", "기타"]

  /**
   * The minimal validity check of the required fields: identifier and date
   * are texts, the current mileage a number or a text, and the channel one
   * of the accepted names.
   */
  predicate IsValid(b: RequestBody)
    requires b.Body?
    ensures IsValid(b) <==>
              b.vehicleId.Str? && b.purchaseDate.Str?
              && (b.currentMileage.Num? || b.currentMileage.Str?)
              && b.purchaseChannel.Str? && b.purchaseChannel.s in CHANNELS
  {
    b.vehicleId.Str? && b.purchaseDate.Str? && (b.currentMileage.Num? || b.currentMileage.Str?)
    && ChannelOf(b.purchaseChannel).Some?
  }

  /**
   * The integer a decimal numeral stands for, with an optional sign and
   * surrounding whitespace; zero for a blank text; nothing for any other text.
   */
  function NumberOfText(s: string): (r: Option<int>)
    ensures Trim(s) == [] ==> r == Some(0)
    ensures IsDecimal(Trim(s)) ==> r == Some(DigitsValue(Trim(s)))
    ensures var t := Trim(s);
            |t| > 0 && t[0] == '-' && IsDecimal(t[1..]) ==> r == Some(0 - DigitsValue(t[1..]))
    ensures var t := Trim(s);
            |t| > 0 && t[0] == '+' && IsDecimal(t[1..]) ==> r == Some(DigitsValue(t[1..]))
    ensures var t := Trim(s);
            r.None? <==> t != [] && !IsDecimal(t) && !((t[0] == '-' || t[0] == '+') && IsDecimal(t[1..]))
  {
    var t := Trim(s);
    if t == [] then Some(0)
    else if IsDecimal(t) then Some(DigitsValue(t))
    else if t[0] == '-' && IsDecimal(t[1..]) then (var v: int := DigitsValue(t[1..]); Some(-v))
    else if t[0] == '+' && IsDecimal(t[1..]) then Some(DigitsValue(t[1..]))
    else None
  }

  /**
   * `Number(v)` where it is an integer; nothing where it is `NaN`: a field
   * that is absent, an array or an object, or a text that is no numeral.
   */
  function ToNumber(v: JsValue): (r: Option<int>)
    ensures r.None? <==> v.Undefined? || v.Composite? || (v.Str? && NumberOfText(v.s).None?)
    ensures v.Num? ==> r == Some(v.n)
    ensures v.Null? || v == Bool(false) ==> r == Some(0)
    ensures v == Bool(true) ==> r == Some(1)
    ensures v.Str? ==> r == NumberOfText(v.s)
  {
    match v
    case Undefined => None
    case Null => Some(0)
    case Bool(b) => Some(if b then 1 else 0)
    case Num(n) => Some(n)
    case Str(s) => NumberOfText(s)
    case Composite => None
  }

  /** `Math.max(0, Math.round(x))` on an integer. */
  function ClampMileage(x: int): (r: nat)
    ensures r >= x && (x >= 0 ==> r == x)
    ensures x <= 0 ==> r == 0
  {
    if x > 0 then x else 0
  }

  /** Whether the purchase mileage counts as not given: absent, `null` or `''`. */
  predicate PurchaseMileageMissing(v: JsValue)
  {
    v == Undefined || v == Null || v == Str("")
  }

  /**
   * The purchase mileage the engine sees: none when the field is absent,
   * `null` or `''`, and none as well when its `Number()` is NaN, since the
   * engine's `isNaN` check in `mileageDelta` then ignores it; otherwise the
   * number clamped at zero.
   */
  function PurchaseKm(v: JsValue): (r: Option<int>)
    ensures r.None? <==> PurchaseMileageMissing(v) || ToNumber(v).None?
    ensures r.Some? ==> r.value >= 0 && r.value == ClampMileage(ToNumber(v).value)
  {
    if PurchaseMileageMissing(v) || ToNumber(v).None? then None
    else Some(ClampMileage(ToNumber(v).value) as int)
  }

  /**
   * Validation and normalisation: `bad_json` for an unparseable body,
   * `invalid_request` for a body that fails validation, otherwise the engine
   * input with both mileages clamped at zero and a missing purchase mileage
   * as none. A current mileage whose `Number()` is NaN only matters when a
   * purchase reading is given: without one it is read as zero, with one the
   * request is refused.
   */
  function NormalizeRequest(body: RequestBody): (r: Result<MatchRemedyInput, ErrorCode>)
    ensures r == Err(BadJson) <==> body.Malformed?
    ensures body.Body? && !IsValid(body) ==> r == Err(InvalidRequest)
    ensures r == Err(InvalidRequest) <==>
              body.Body? && (!IsValid(body)
                             || (ToNumber(body.currentMileage).None?
                                 && PurchaseKm(body.purchaseMileage).Some?))
    ensures r.Ok? ==>
              IsValid(body)
              && r.value.vehicleId == body.vehicleId.s
              && r.value.purchaseDate == body.purchaseDate.s
              && ChannelOf(body.purchaseChannel) == Some(r.value.purchaseChannel)
              && r.value.currentMileage >= 0
              && (r.value.purchaseMileage.Some? ==> r.value.purchaseMileage.value >= 0)
              && r.value.purchaseMileage == PurchaseKm(body.purchaseMileage)
              && (r.value.purchaseMileage.None? <==>
                    PurchaseMileageMissing(body.purchaseMileage) || ToNumber(body.purchaseMileage).None?)
              && r.value.ocrText == body.ocrText && r.value.carImages == body.carImages
    ensures r.Ok? && ToNumber(body.currentMileage).Some? ==>
              r.value.currentMileage == ClampMileage(ToNumber(body.currentMileage).value)
    ensures r.Ok? && ToNumber(body.currentMileage).None? ==>
              r.value.currentMileage == 0 && r.value.purchaseMileage.None?
    ensures r.Ok? && PurchaseKm(body.purchaseMileage).Some? ==>
              r.value.purchaseMileage == Some(ClampMileage(ToNumber(body.purchaseMileage).value) as int)
    ensures body.Body? && IsValid(body) && body.currentMileage.Num?
            && PurchaseMileageMissing(body.purchaseMileage) ==>
              r.Ok? && r.value.currentMileage == ClampMileage(body.currentMileage.n)
              && r.value.purchaseMileage.None?
    ensures body.Body? && IsValid(body) && body.currentMileage.Num? && body.purchaseMileage.Num? ==>
              r.Ok? && r.value.currentMileage == ClampMileage(body.currentMileage.n)
              && r.value.purchaseMileage == Some(ClampMileage(body.purchaseMileage.n))
  {
    match body
    case Malformed => Err(BadJson)
    case Body(vehicleId, purchaseDate, current, purchase, channel, ocrText, carImages) =>
      if !IsValid(body) then Err(InvalidRequest)
      else
        var purchaseKm := PurchaseKm(purchase);
        match ToNumber(current)
        case Some(c) =>
          Ok(MatchRemedyInput(
            vehicleId.s, purchaseDate.s, ClampMileage(c), purchaseKm, ChannelOf(channel).value,
            ocrText, carImages))
        case None =>
          if purchaseKm.Some? then Err(InvalidRequest)
          else
            Ok(MatchRemedyInput(
              vehicleId.s, purchaseDate.s, 0, None, ChannelOf(channel).value, ocrText, carImages))
  }

  /**
   * `POST`: status 200 with the engine's output for an accepted request,
   * status 400 with the error code otherwise; the engine runs only on
   * accepted input.
   */
  function Post(body: RequestBody, today: Date): (r: Response)
    requires IsCalendarDate(today)
    ensures r.status == 200 || r.status == 400
    ensures r.status == 200 <==> NormalizeRequest(body).Ok?
    ensures r.status == 200 ==>
              r.body == Evaluation(EvaluateAll(NormalizeRequest(body).value, today))
    ensures r.status == 400 ==> r.body == Error(NormalizeRequest(body).error)
    ensures body.Malformed? ==> r == Response(400, Error(BadJson))
    ensures body.Body? && !IsValid(body) ==> r == Response(400, Error(InvalidRequest))
  {
    match NormalizeRequest(body)
    case Ok(input) => Response(200, Evaluation(EvaluateAll(input, today)))
    case Err(e) => Response(400, Error(e))
  }

  /** A mileage typed as text is read as the number it spells. */
  lemma NumberOfTextExample()
    ensures NumberOfText("1500") == Some(1500)
  {
    TrimOfTrimmed("1500");
    assert DigitsValue("1500") == 1500 by {
      assert "1500"[..3] == "150" && "150"[..2] == "15" && "15"[..1] == "1" && "1"[..0] == [];
    }
  }
}

=== FILE: ocr_confidence.dfy ===
/**
 * Confidence grading of a performance-record (성능점검기록부) analysis: how
 * many of the five component categories could not be read, and whether the
 * extracted text reports that the picture was not a usable record.
 */
module OcrConfidence {
  import opened Wrappers
  import opened Text

  /** The status of a category that could not be read. */
  const UNKNOWN := "미확인"

  /** The five component categories of the record. */
  datatype Categories = Categories(
    engine: string, mission: string, steering: string, brake: string, electric: string)
  {
    /** The `k`-th category, in the order engine, mission, steering, brake, electric. */
    function At(k: nat): string
      requires k < 5
    {
      match k
      case 0 => engine
      case 1 => mission
      case 2 => steering
      case 3 => brake
      case _ => electric
    }

    /** These categories with the `k`-th one set to `v`. */
    function With(k: nat, v: string): (c: Categories)
      requires k < 5
      ensures c.At(k) == v
      ensures forall j :: 0 <= j < 5 && j != k ==> c.At(j) == At(j)
    {
      match k
      case 0 => this.(engine := v)
      case 1 => this.(mission := v)
      case 2 => this.(steering := v)
      case 3 => this.(brake := v)
      case _ => this.(electric := v)
    }
  }

  datatype Confidence = High | Low | Retry
  {
    /** The order of trust: retry < low < high. */
    function Rank(): nat
    {
      match this
      case Retry => 0
      case Low => 1
      case High => 2
    }
  }

  /** The analysis of one record (`OcrAnalysisResult`); `rawText` may be missing. */
  datatype OcrAnalysisResult = OcrAnalysisResult(
    noAccidentMarked: bool,
    categories: Categories,
    rawText: Option<string>,
    confidence: Option<Confidence>)

  /** 1 when the category is unknown, else 0. */
  function UnknownAt(c: Categories, k: nat): nat
    requires k < 5
  {
    if c.At(k) == UNKNOWN then 1 else 0
  }

  /** How many of the five categories are "미확인". */
  function UnknownCount(c: Categories): (n: nat)
    ensures n <= 5
    ensures n == 5 <==> forall k :: 0 <= k < 5 ==> c.At(k) == UNKNOWN
    ensures n == 0 <==> forall k :: 0 <= k < 5 ==> c.At(k) != UNKNOWN
  {
    UnknownAt(c, 0) + UnknownAt(c, 1) + UnknownAt(c, 2) + UnknownAt(c, 3) + UnknownAt(c, 4)
  }

  /** The texts by which the analysis reports that the picture was not a usable record. */
  predicate HasFailureMarker(raw: string)
  {
    Contains(raw, "문서 형식 불일치") || Contains(raw, "성능점검기록부가 아님")
    || Contains(raw, "이미지 분석 실패")
  }

  /** The raw text, a missing one read as empty. */
  function RawText(r: OcrAnalysisResult): string
  {
    match r.rawText
    case Some(t) => t
    case None => ""
  }

  /**
   * `calculateConfidence`: retry when the text reports a failure or nothing
   * was read, low when three or four categories are unknown, high otherwise.
   */
  function CalculateConfidence(r: OcrAnalysisResult): (c: Confidence)
    ensures HasFailureMarker(RawText(r)) ==> c == Retry
    ensures !HasFailureMarker(RawText(r)) ==>
              (c == Retry <==> UnknownCount(r.categories) == 5)
              && (c == Low <==> 3 <= UnknownCount(r.categories) <= 4)
              && (c == High <==> UnknownCount(r.categories) <= 2)
  {
    var unknownCount := UnknownCount(r.categories);
    var raw := RawText(r);
    if HasFailureMarker(raw) then Retry
    else if unknownCount == 5 then Retry
    else if unknownCount >= 3 then Low
    else High
  }

  /** Marking one more category unknown never lowers the unknown count. */
  lemma UnknownCountMonotone(c: Categories, k: nat)
    requires k < 5
    ensures UnknownCount(c.With(k, UNKNOWN)) >= UnknownCount(c)
    ensures c.At(k) != UNKNOWN ==> UnknownCount(c.With(k, UNKNOWN)) == UnknownCount(c) + 1
  {
    var d := c.With(k, UNKNOWN);
    assert forall j :: 0 <= j < 5 && j != k ==> UnknownAt(d, j) == UnknownAt(c, j);
  }

  /** With the raw text fixed, turning a category into "미확인" never raises the confidence. */
  lemma UnknownNeverRaisesConfidence(r: OcrAnalysisResult, k: nat)
    requires k < 5
    ensures CalculateConfidence(r.(categories := r.categories.With(k, UNKNOWN))).Rank()
              <= CalculateConfidence(r).Rank()
  {
    UnknownCountMonotone(r.categories, k);
  }

  /** A missing raw text grades like an empty one. */
  lemma MissingRawTextIsEmpty(r: OcrAnalysisResult)
    ensures CalculateConfidence(r.(rawText := None)) == CalculateConfidence(r.(rawText := Some("")))
  {
  }

  /** `analyzeDocumentImage` on success: the parsed analysis with its confidence filled in. */
  function Graded(parsed: OcrAnalysisResult): (r: OcrAnalysisResult)
    ensures r.confidence.Some?
    ensures r.(confidence := parsed.confidence) == parsed
    ensures CalculateConfidence(r) == r.confidence.value
  {
    parsed.(confidence := Some(CalculateConfidence(parsed)))
  }

  /** The record `analyzeDocumentImage` returns when the analysis itself fails. */
  const DOCUMENT_ANALYSIS_FAILURE := OcrAnalysisResult(
    false,
    Categories(UNKNOWN, UNKNOWN, UNKNOWN, UNKNOWN, UNKNOWN),
    Some("이미지 분석 실패"),
    Some(Retry))

  /** The failure record carries the confidence that grading it would give. */
  lemma FailureRecordIsRetry()
    ensures DOCUMENT_ANALYSIS_FAILURE.confidence == Some(Retry)
    ensures CalculateConfidence(DOCUMENT_ANALYSIS_FAILURE) == Retry
    ensures CalculateConfidence(DOCUMENT_ANALYSIS_FAILURE.(rawText := None)) == Retry
  {
    assert OccursAt("이미지 분석 실패", "이미지 분석 실패", 0);
  }
}

=== FILE: rules.dfy ===
/**
 * The rules engine: from the purchase facts alone it decides the liability
 * insurance remedy (30 days / 2,000 km), the dealer refund (K Car 3 days,
 * 엔카 7 days) and the personal insurance remedy, computes the five deadline
 * blocks and fills the fact-check cards with their defaults.
 */
module Rules {
  import opened Wrappers
  import opened Text
  import opened TimeMileage

  /** The sales channel of the purchase. */
  datatype Channel = Individual | KCar | Encar | Other

  /** The channel as the request spells it. */
  function ChannelName(c: Channel): string
  {
    match c
    case Individual => "개인"
    case KCar => "K Car"
    case Encar => "엔카"
    case Other => "기타"
  }

  /** The purchase facts the engine evaluates (`MatchRemedyInput`). */
  datatype MatchRemedyInput = MatchRemedyInput(
    vehicleId: string,
    purchaseDate: string,            // YYYY-MM-DD
    currentMileage: int,
    purchaseMileage: Option<int>,
    purchaseChannel: Channel,
    ocrText: Option<string>,         // carried along, not evaluated
    carImages: Option<seq<string>>)  // carried along, not evaluated

  /** A fact-check card with evidence lines (the history and OCR cards). */
  datatype EvidenceCard = EvidenceCard(status: string, summary: string, evidence: seq<string>)

  /** The photo fact-check card. */
  datatype PhotoCard = PhotoCard(status: string, summary: string)

  datatype FactCheck = FactCheck(history: EvidenceCard, ocr: EvidenceCard, photo: PhotoCard)

  /** A verdict with its reason (liability and personal insurance). */
  datatype Verdict = Verdict(verdict: Label, reason: string)

  /** The dealer refund verdict; brand and window only for the two platform channels. */
  datatype DealerRefund = DealerRefund(
    verdict: Label, reason: string, brand: Option<Channel>, windowDays: Option<int>)

  datatype Remedies = Remedies(
    liabilityInsurance: Verdict, dealerRefund: DealerRefund, personalInsurance: Verdict)

  datatype Deadlines = Deadlines(d30: DDay, km2000: KmWindow, d3: DDay, d7: DDay, d90: DDay)

  /** The engine's answer (`MatchRemedyOutput`). */
  datatype MatchRemedyOutput = MatchRemedyOutput(
    factCheck: FactCheck, flags: seq<string>, remedies: Remedies, deadlines: Deadlines)

  // ---- Verdict labels ----

  /** The verdict labels the engine produces. */
  datatype Label = Likely | PeriodAndKmExceeded | PeriodExceeded | KmExceeded | NeedsReview
  {
    /** The label as the response spells it. */
    function Text(): string
    {
      match this
      case Likely => "가능성 높음"
      case PeriodAndKmExceeded => "기간/주행 초과"
      case PeriodExceeded => "기간 초과"
      case KmExceeded => "주행 초과"
      case NeedsReview => "검토 필요"
    }
  }

  /** Distinct labels are spelled differently, so the response's strings carry the verdict. */
  lemma LabelTextsDistinct(a: Label, b: Label)
    ensures a.Text() == b.Text() <==> a == b
  {
    if a != b {
      assert |a.Text()| != |b.Text()| || a.Text()[0] != b.Text()[0];
    }
  }

  // ---- Liability insurance ----

  /**
   * `verdictByDayKm`: likely when the period holds and the distance holds or
   * is unknown; otherwise the label names exactly the criteria that failed.
   */
  function VerdictByDayKm(dayOk: bool, kmOk: Option<bool>): (v: Label)
    ensures v == Likely <==> dayOk && kmOk != Some(false)
    ensures v == PeriodAndKmExceeded <==> !dayOk && kmOk == Some(false)
    ensures v == PeriodExceeded <==> !dayOk && kmOk != Some(false)
    ensures v == KmExceeded <==> dayOk && kmOk == Some(false)
  {
    if dayOk && kmOk != Some(false) then Likely
    else if !dayOk && kmOk == Some(false) then PeriodAndKmExceeded
    else if !dayOk then PeriodExceeded
    else KmExceeded
  }

  const KM_NOT_GIVEN := "주행거리 미입력 → km 판정 제외"

  /** The distance part of a liability reason: the distance driven, or the note that it was left out. */
  function KmPart(used: Option<nat>): string
  {
    match used
    case None => KM_NOT_GIVEN
    case Some(u) => "구매 후 주행 " + (NatToString(u) + "km")
  }

  /** The distance part for a known distance, read left to right. */
  lemma KmPartSpelled(u: nat)
    ensures KmPart(Some(u)) == "구매 후 주행 " + NatToString(u) + "km"
  {
  }

  /**
   * `buildLiabilityReason`: `구매 {elapsed}일 경과. ` followed by the distance
   * driven in km, or by the note that no purchase reading was given.
   */
  function BuildLiabilityReason(elapsed: nat, used: Option<nat>): (r: string)
    ensures StartsWith(r, "구매 " + NatToString(elapsed) + "일 경과. ")
    ensures used.None? ==> r == "구매 " + NatToString(elapsed) + "일 경과. " + KM_NOT_GIVEN
    ensures used.Some? ==>
              r == "구매 " + NatToString(elapsed) + "일 경과. " + "구매 후 주행 " + NatToString(used.value) + "km"
  {
    var n, k := NatToString(elapsed), KmPart(used);
    var head := "구매 " + n + "일 경과. ";
    var r := "구매 " + (n + ("일 경과. " + k));
    assert r == head + k;
    AffixesOfAppend(head, k);
    if used.Some? then
      var m := NatToString(used.value);
      KmPartSpelled(used.value);
      assert head + ("구매 후 주행 " + m + "km") == head + "구매 후 주행 " + m + "km";
      r
    else r
  }

  /** Distinct distance parts read differently. */
  lemma KmPartDetermines(u1: Option<nat>, u2: Option<nat>)
    requires KmPart(u1) == KmPart(u2)
    ensures u1 == u2
  {
    if u1.Some? && u2.Some? {
      DropAppend("구매 후 주행 ", NatToString(u1.value) + "km");
      DropAppend("구매 후 주행 ", NatToString(u2.value) + "km");
      NumeralPrefixUnique(u1.value, "km", u2.value, "km");
    } else if u1.Some? != u2.Some? {
      KmPartOpening(u1);
      KmPartOpening(u2);
      assert false;
    }
  }

  /** A known distance is reported from `구매`, a missing one from `주행거리`. */
  lemma KmPartOpening(u: Option<nat>)
    ensures |KmPart(u)| > 0 && (KmPart(u)[0] == '구' <==> u.Some?)
  {
  }

  /**
   * A liability reason can be read back: it states exactly one elapsed count
   * and exactly one distance (or its absence).
   */
  lemma LiabilityReasonDetermines(e1: nat, u1: Option<nat>, e2: nat, u2: Option<nat>)
    requires BuildLiabilityReason(e1, u1) == BuildLiabilityReason(e2, u2)
    ensures e1 == e2 && u1 == u2
  {
    var t1, t2 := "일 경과. " + KmPart(u1), "일 경과. " + KmPart(u2);
    DropAppend("구매 ", NatToString(e1) + t1);
    DropAppend("구매 ", NatToString(e2) + t2);
    NumeralPrefixUnique(e1, t1, e2, t2);
    DropAppend("일 경과. ", KmPart(u1));
    DropAppend("일 경과. ", KmPart(u2));
    KmPartDetermines(u1, u2);
  }

  // ---- Dealer refund ----

  /** The refund window of a platform channel, none for the other channels. */
  function RefundWindow(c: Channel): Option<int>
  {
    match c
    case KCar => Some(3)
    case Encar => Some(7)
    case _ => None
  }

  /**
   * `evaluateDealerRefund`: for K Car and 엔카, likely while the elapsed days
   * are within the platform's window (inclusive) and period exceeded after;
   * the individual and other channels are not covered and get "needs review".
   */
  function EvaluateDealerRefund(channel: Channel, elapsed: int): (r: DealerRefund)
    ensures r.windowDays == RefundWindow(channel)
    ensures r.brand.Some? <==> r.windowDays.Some?
    ensures r.brand.Some? ==> r.brand.value == channel
    ensures r.windowDays.Some? ==>
              (r.verdict == Likely <==> elapsed <= r.windowDays.value)
              && (r.verdict == PeriodExceeded <==> elapsed > r.windowDays.value)
              && StartsWith(r.reason, ChannelName(channel))
    ensures r.windowDays.None? ==> r.verdict == NeedsReview
    ensures channel == KCar ==>
              r.reason == if elapsed <= 3 then "K Car 3일 환불 정책 창구 대상 가능성"
                          else "K Car 3일 환불 정책 기간 초과"
    ensures channel == Encar ==>
              r.reason == if elapsed <= 7 then "엔카 7일 환불 정책 창구 대상 가능성"
                          else "엔카 7일 환불 정책 기간 초과"
    ensures channel == Individual || channel == Other ==>
              r.reason == "개인/기타 채널은 판매사 환불 정책 대상이 아님 — 다른 구제수단(책임보험/개인보험) 검토 필요"
  {
    match channel
    case KCar =>
      var dayOk := elapsed <= 3;
      DealerRefund(
        if dayOk then Likely else PeriodExceeded,
        if dayOk then "K Car 3일 환불 정책 창구 대상 가능성" else "K Car 3일 환불 정책 기간 초과",
        Some(KCar), Some(3))
    case Encar =>
      var dayOk := elapsed <= 7;
      DealerRefund(
        if dayOk then Likely else PeriodExceeded,
        if dayOk then "엔카 7일 환불 정책 창구 대상 가능성" else "엔카 7일 환불 정책 기간 초과",
        Some(Encar), Some(7))
    case _ =>
      DealerRefund(
        NeedsReview,
        "개인/기타 채널은 판매사 환불 정책 대상이 아님 — 다른 구제수단(책임보험/개인보험) 검토 필요",
        None, None)
  }

  // ---- Personal insurance and fact-check cards ----

  /** The personal insurance verdict, the same for every input. */
  const PERSONAL := Verdict(NeedsReview, "개인 자동차보험 청구는 사건 유형별로 상이. 공통 서류 안내 필요")

  /** `buildFactCheckDefaults`: the cards shown when no outside source is connected. */
  const FACT_CHECK_DEFAULTS := FactCheck(
    EvidenceCard("불명", "외부 이력 미연동(목업)", []),
    EvidenceCard("확인 불가", "기록부 이미지/텍스트 미제공", []),
    PhotoCard("업로드 없음", "점검 사진 미제공"))

  // ---- The engine ----

  /**
   * The liability verdict from the elapsed days and the distance driven: the
   * period holds through day 30, the distance through 2,000 km, and an
   * unknown distance never fails.
   */
  function LiabilityVerdict(elapsed: nat, used: Option<nat>): (r: Verdict)
    ensures var kmFails := used.Some? && used.value > 2000;
            (r.verdict == Likely <==> elapsed <= 30 && !kmFails)
            && (r.verdict == PeriodExceeded <==> elapsed > 30 && !kmFails)
            && (r.verdict == KmExceeded <==> elapsed <= 30 && kmFails)
            && (r.verdict == PeriodAndKmExceeded <==> elapsed > 30 && kmFails)
    ensures r.reason == BuildLiabilityReason(elapsed, used)
  {
    var dayOk := elapsed <= 30;
    var kmOk := match used case None => None case Some(u) => Some(u <= 2000);
    Verdict(VerdictByDayKm(dayOk, kmOk), BuildLiabilityReason(elapsed, used))
  }

  /**
   * `evaluateAll`: the three remedy verdicts, the five deadline blocks and the
   * default fact-check cards for one purchase, as seen on `today`.
   */
  function EvaluateAll(input: MatchRemedyInput, today: Date): (r: MatchRemedyOutput)
    requires IsCalendarDate(today)
    ensures r.flags == []
    ensures r.factCheck == FACT_CHECK_DEFAULTS
    ensures r.remedies.personalInsurance.verdict == NeedsReview
    ensures r.remedies.personalInsurance == PERSONAL
    ensures r.remedies.dealerRefund.windowDays == RefundWindow(input.purchaseChannel)
    ensures var e := DaysSince(input.purchaseDate, today);
            r.remedies.liabilityInsurance
              == LiabilityVerdict(e, MileageDelta(input.purchaseMileage, input.currentMileage))
            && r.remedies.dealerRefund == EvaluateDealerRefund(input.purchaseChannel, e)
    ensures r.deadlines == Deadlines(
              DayWindow(30, input.purchaseDate, today),
              Window2000km(input.purchaseMileage, input.currentMileage),
              DayWindow(3, input.purchaseDate, today),
              DayWindow(7, input.purchaseDate, today),
              DayWindow(90, input.purchaseDate, today))
    ensures r.deadlines.d30.daysLeft <= 30 && r.deadlines.d3.daysLeft <= 3
    ensures r.deadlines.d7.daysLeft <= 7 && r.deadlines.d90.daysLeft <= 90
    ensures r.deadlines.km2000.kmLeft.Some? ==> r.deadlines.km2000.kmLeft.value <= 2000
  {
    var d30 := Window30d(input.purchaseDate, today);
    var d3 := Window3d(input.purchaseDate, today);
    var d7 := Window7d(input.purchaseDate, today);
    var d90 := Window90d(input.purchaseDate, today);
    var km2000 := Window2000km(input.purchaseMileage, input.currentMileage);
    var elapsed := DaysSince(input.purchaseDate, today);
    var used := MileageDelta(input.purchaseMileage, input.currentMileage);
    MatchRemedyOutput(
      FACT_CHECK_DEFAULTS,
      [],
      Remedies(LiabilityVerdict(elapsed, used), EvaluateDealerRefund(input.purchaseChannel, elapsed), PERSONAL),
      Deadlines(d30, km2000, d3, d7, d90))
  }

  // ---- Properties of the engine ----

  /**
   * The liability table with inclusive thresholds: likely exactly when at
   * most 30 days have passed and the distance driven is unknown or at most
   * 2,000 km; otherwise the label names the criteria that failed.
   */
  lemma LiabilityTable(input: MatchRemedyInput, today: Date)
    requires IsCalendarDate(today)
    ensures var v := EvaluateAll(input, today).remedies.liabilityInsurance.verdict;
            var e := DaysSince(input.purchaseDate, today);
            var u := MileageDelta(input.purchaseMileage, input.currentMileage);
            var kmFails := u.Some? && u.value > 2000;
            (v == Likely <==> e <= 30 && !kmFails)
            && (v == PeriodExceeded <==> e > 30 && !kmFails)
            && (v == KmExceeded <==> e <= 30 && kmFails)
            && (v == PeriodAndKmExceeded <==> e > 30 && kmFails)
  {
  }

  /** Without a purchase reading the distance never causes a liability failure. */
  lemma MissingMileageNeverFailsDistance(input: MatchRemedyInput, today: Date)
    requires IsCalendarDate(today)
    requires input.purchaseMileage.None?
    ensures EvaluateAll(input, today).remedies.liabilityInsurance.verdict
              in {Likely, PeriodExceeded}
    ensures EvaluateAll(input, today).remedies.liabilityInsurance.reason
              == BuildLiabilityReason(DaysSince(input.purchaseDate, today), None)
  {
  }

  /**
   * Without a purchase reading the current mileage is not used at all: the
   * answer is the same whatever it is.
   */
  lemma CurrentMileageUnusedWithoutPurchaseReading(input: MatchRemedyInput, current: int, today: Date)
    requires IsCalendarDate(today)
    requires input.purchaseMileage.None?
    ensures EvaluateAll(input.(currentMileage := current), today) == EvaluateAll(input, today)
  {
  }

  /**
   * On one "today" the verdicts agree with the deadline blocks: the period
   * holds exactly while the 30-day block has days left, the distance fails
   * exactly when the 2,000 km block is overdrawn, and a platform refund is
   * likely exactly while its own window has days left.
   */
  lemma VerdictsAgreeWithDeadlines(input: MatchRemedyInput, today: Date)
    requires IsCalendarDate(today)
    ensures var r := EvaluateAll(input, today);
            var v := r.remedies.liabilityInsurance.verdict;
            var dl := r.deadlines;
            ((v == Likely || v == KmExceeded) <==> dl.d30.daysLeft >= 0)
            && ((v == KmExceeded || v == PeriodAndKmExceeded)
                <==> dl.km2000.kmLeft.Some? && dl.km2000.kmLeft.value < 0)
            && (dl.km2000.kmLeft.None? <==> input.purchaseMileage.None?)
            && (dl.d30.text[1] == '-' <==> dl.d30.daysLeft >= 0)
            && (input.purchaseChannel == KCar ==>
                  (r.remedies.dealerRefund.verdict == Likely <==> dl.d3.daysLeft >= 0))
            && (input.purchaseChannel == Encar ==>
                  (r.remedies.dealerRefund.verdict == Likely <==> dl.d7.daysLeft >= 0))
  {
    var e := DaysSince(input.purchaseDate, today);
    var u := MileageDelta(input.purchaseMileage, input.currentMileage);
    LiabilityAgreesWithWindows(e, u);
    RefundAgreesWithWindows(input.purchaseChannel, e);
  }

  /** The liability verdict against the 30-day and 2,000 km blocks, for known counts. */
  lemma LiabilityAgreesWithWindows(e: nat, u: Option<nat>)
    ensures var v := LiabilityVerdict(e, u).verdict;
            var km := KmLeftLabel(2000, u);
            ((v == Likely || v == KmExceeded) <==> 30 - e >= 0)
            && ((v == KmExceeded || v == PeriodAndKmExceeded) <==> km.kmLeft.Some? && km.kmLeft.value < 0)
  {
  }

  /** The dealer refund verdict against the 3- and 7-day blocks, for a known count. */
  lemma RefundAgreesWithWindows(c: Channel, e: nat)
    ensures c == KCar ==> (EvaluateDealerRefund(c, e).verdict == Likely <==> 3 - e >= 0)
    ensures c == Encar ==> (EvaluateDealerRefund(c, e).verdict == Likely <==> 7 - e >= 0)
  {
  }

  /** Dealer refund boundaries: day 3 is still inside K Car's window, day 4 is not. */
  lemma DealerRefundBoundaries()
    ensures EvaluateDealerRefund(KCar, 3).verdict == Likely
    ensures EvaluateDealerRefund(KCar, 4).verdict == PeriodExceeded
    ensures EvaluateDealerRefund(Encar, 7).verdict == Likely
    ensures EvaluateDealerRefund(Encar, 8).verdict == PeriodExceeded
    ensures EvaluateDealerRefund(Individual, 0).verdict == NeedsReview
    ensures EvaluateDealerRefund(Other, 0).brand.None?
  {
  }

  /**
   * A K Car purchase ten days before today with 500 km driven: the liability
   * remedy is likely, the K Car refund window has passed.
   */
  lemma ScenarioTenDaysKCar(input: MatchRemedyInput)
    requires input.purchaseDate == "2024-05-01" && input.purchaseChannel == KCar
    requires input.purchaseMileage == Some(10000) && input.currentMileage == 10500
    ensures var r := EvaluateAll(input, Date(2024, 5, 11));
            r.remedies.liabilityInsurance.verdict == Likely
            && r.remedies.dealerRefund.verdict == PeriodExceeded
            && r.deadlines.d30.daysLeft == 20
            && r.deadlines.d3.daysLeft == -7
            && r.deadlines.km2000.kmLeft == Some(1500)
  {
    TenDaysElapsed();
  }

  lemma TenDaysElapsed()
    ensures DaysSince("2024-05-01", Date(2024, 5, 11)) == 10
  {
    assert ParseLocalDate("2024-05-01") == Some(Date(2024, 5, 1)) by { FieldsOf("2024-05-01"); }
  }

  /**
   * A purchase made today through an individual seller with no distance
   * driven: the liability remedy is likely, the dealer refund and the
   * personal insurance need review.
   */
  lemma ScenarioSameDayIndividual(input: MatchRemedyInput, today: Date)
    requires ReadsBack(today) && today.year <= 9999
    requires input.purchaseDate == FormatDate(today) && input.purchaseChannel == Individual
    requires input.purchaseMileage == Some(input.currentMileage)
    ensures var r := EvaluateAll(input, today);
            r.remedies.liabilityInsurance.verdict == Likely
            && r.remedies.dealerRefund.verdict == NeedsReview
            && r.remedies.personalInsurance.verdict == NeedsReview
            && r.deadlines.d30.daysLeft == 30 && r.deadlines.km2000.kmLeft == Some(2000)
  {
    DaysSinceToday(today);
  }
}

=== FILE: text.dfy ===
/**
 * Character and string helpers the rest of the model is written with: decimal
 * digits and numerals, JavaScript's whitespace class, `trim`, `split` and
 * substring search.
 */
module Text {

  // ---- Decimal digits and numerals ----

  /** The ASCII digits that JavaScript's regular-expression class `\d` matches. */
  predicate IsDigit(c: char) { '0' <= c <= '9' }

  predicate AllDigits(s: string) { forall i :: 0 <= i < |s| ==> IsDigit(s[i]) }

  /** A non-empty run of decimal digits. */
  predicate IsDecimal(s: string) { |s| > 0 && AllDigits(s) }

  function DigitChar(d: nat): (c: char)
    requires d < 10
    ensures IsDigit(c) && c as int - '0' as int == d
  {
    ('0' as int + d) as char
  }

  function DigitValue(c: char): (d: nat)
    requires IsDigit(c)
    ensures d < 10 && DigitChar(d) == c
  {
    c as int - '0' as int
  }

  /** The value of a string of decimal digits, read most significant digit first. */
  function DigitsValue(s: string): nat
    requires AllDigits(s)
  {
    if s == [] then 0 else DigitsValue(s[..|s| - 1]) * 10 + DigitValue(s[|s| - 1])
  }

  function Pow10(w: nat): (p: nat)
    ensures p >= 1
  {
    if w == 0 then 1 else 10 * Pow10(w - 1)
  }

  /**
   * How a template literal prints a non-negative integer: its shortest decimal
   * numeral, which reads back as the same number.
   */
  function NatToString(n: nat): (s: string)
    ensures IsDecimal(s)
    ensures DigitsValue(s) == n
    ensures |s| > 1 ==> s[0] != '0'
  {
    if n < 10 then [DigitChar(n)]
    else
      var init := NatToString(n / 10);
      var s := init + [DigitChar(n % 10)];
      assert s[..|s| - 1] == init;
      s
  }

  /** The decimal numeral of `n` left-padded with zeros to exactly `w` digits. */
  function Padded(n: nat, w: nat): (s: string)
    requires n < Pow10(w)
    ensures |s| == w && AllDigits(s)
    ensures DigitsValue(s) == n
  {
    if w == 0 then []
    else
      var init := Padded(n / 10, w - 1);
      var s := init + [DigitChar(n % 10)];
      assert s[..|s| - 1] == init;
      s
  }

  lemma {:induction false} DigitsValueBound(s: string)
    requires AllDigits(s)
    ensures DigitsValue(s) < Pow10(|s|)
  {
    if s != [] {
      DigitsValueBound(s[..|s| - 1]);
    }
  }

  /** A string of `w` digits is the zero-padded numeral of its own value. */
  lemma {:induction false} PaddedOfDigits(s: string)
    requires AllDigits(s)
    ensures DigitsValue(s) < Pow10(|s|)
    ensures Padded(DigitsValue(s), |s|) == s
  {
    DigitsValueBound(s);
    if s != [] {
      var init := s[..|s| - 1];
      PaddedOfDigits(init);
      var v := DigitsValue(s);
      assert v / 10 == DigitsValue(init) && v % 10 == DigitValue(s[|s| - 1]);
      assert s == init + [s[|s| - 1]];
    }
  }

  /** Two printed numbers are equal exactly when the numbers are. */
  lemma NatToStringInjective(m: nat, n: nat)
    ensures NatToString(m) == NatToString(n) <==> m == n
  {
  }

  /** The number of digits `s` starts with. */
  function DigitRun(s: string): (k: nat)
    ensures k <= |s|
  {
    if s == [] || !IsDigit(s[0]) then 0 else 1 + DigitRun(s[1..])
  }

  lemma {:induction false} DigitRunOfNumeral(a: string, x: string)
    requires AllDigits(a)
    requires x == [] || !IsDigit(x[0])
    ensures DigitRun(a + x) == |a|
  {
    if a != [] {
      assert (a + x)[1..] == a[1..] + x;
      DigitRunOfNumeral(a[1..], x);
    }
  }

  /**
   * When a numeral is followed by text that does not start with a digit, the
   * numeral is determined by the whole string: the number can be read back.
   */
  lemma {:induction false} NumeralPrefixUnique(m: nat, x: string, n: nat, y: string)
    requires x == [] || !IsDigit(x[0])
    requires y == [] || !IsDigit(y[0])
    requires NatToString(m) + x == NatToString(n) + y
    ensures m == n && x == y
  {
    var a, b := NatToString(m), NatToString(n);
    var s := a + x;
    DigitRunOfNumeral(a, x);
    DigitRunOfNumeral(b, y);
    assert a == s[..|a|] == b;
  }

  // ---- Whitespace, as JavaScript's `\s` and `String.prototype.trim` see it ----

  /** JavaScript's WhiteSpace and LineTerminator characters. */
  predicate IsSpace(c: char)
  {
    c == '\t' || c == '\n' || c == '\U{000B}' || c == '\U{000C}' || c == '\r' || c == ' '
    || c == '\U{00A0}' || c == '\U{1680}' || ('\U{2000}' <= c <= '\U{200A}')
    || IsLineSeparator(c) || c == '\U{202F}' || c == '\U{205F}'
    || c == '\U{3000}' || c == '\U{FEFF}'
  }

  /** U+2028 LINE SEPARATOR and U+2029 PARAGRAPH SEPARATOR. */
  predicate IsLineSeparator(c: char) { c == '\U{2028}' || c == '\U{2029}' }

  /** The characters that end a line, which `.` in a regular expression does not match. */
  predicate IsLineTerminator(c: char)
  {
    c == '\n' || c == '\r' || IsLineSeparator(c)
  }

  predicate AllSpace(s: string) { forall i :: 0 <= i < |s| ==> IsSpace(s[i]) }

  /** The number of whitespace characters `s` starts with. */
  function LeadingSpaces(s: string): (k: nat)
    ensures k <= |s| && AllSpace(s[..k])
    ensures k < |s| ==> !IsSpace(s[k])
  {
    if s == [] || !IsSpace(s[0]) then 0
    else
      var k := 1 + LeadingSpaces(s[1..]);
      assert forall i :: 1 <= i < k ==> s[..k][i] == s[1..][..k - 1][i - 1];
      k
  }

  /** The length of `s` without its trailing whitespace. */
  function ContentEnd(s: string): (e: nat)
    ensures e <= |s| && AllSpace(s[e..])
    ensures e > 0 ==> !IsSpace(s[e - 1])
  {
    if s == [] || !IsSpace(s[|s| - 1]) then |s|
    else
      var init := s[..|s| - 1];
      var e := ContentEnd(init);
      assert s[e..] == init[e..] + [s[|s| - 1]];
      e
  }

  /**
   * `String.prototype.trim`: `s` without its leading and trailing whitespace.
   * The result is the part of `s` between a whitespace prefix and a whitespace
   * suffix, and it neither starts nor ends with whitespace.
   */
  function Trim(s: string): (r: string)
    ensures r == [] || (!IsSpace(r[0]) && !IsSpace(r[|r| - 1]))
    ensures LeadingSpaces(s) + |r| <= |s|
    ensures r == s[LeadingSpaces(s)..LeadingSpaces(s) + |r|]
    ensures AllSpace(s[..LeadingSpaces(s)]) && AllSpace(s[LeadingSpaces(s) + |r|..])
  {
    var k := LeadingSpaces(s);
    var t := s[k..];
    var e := ContentEnd(t);
    assert t[e..] == s[k + e..];
    t[..e]
  }

  /** Trimming twice changes nothing more than trimming once. */
  lemma TrimIdempotent(s: string)
    ensures Trim(Trim(s)) == Trim(s)
  {
    var r := Trim(s);
    assert LeadingSpaces(r) == 0;
    assert ContentEnd(r) == |r|;
  }

  /** A text that neither starts nor ends with whitespace is its own trim. */
  lemma TrimOfTrimmed(s: string)
    requires s == [] || (!IsSpace(s[0]) && !IsSpace(s[|s| - 1]))
    ensures Trim(s) == s
  {
    assert LeadingSpaces(s) == 0;
    assert ContentEnd(s) == |s|;
  }

  /** Whitespace followed by a non-space character: the leading run is exactly the whitespace. */
  lemma {:induction false} LeadingSpacesOfPrefix(sp: string, x: string)
    requires AllSpace(sp)
    requires x == [] || !IsSpace(x[0])
    ensures LeadingSpaces(sp + x) == |sp|
  {
    if sp != [] {
      assert (sp + x)[1..] == sp[1..] + x;
      LeadingSpacesOfPrefix(sp[1..], x);
    }
  }

  // ---- Searching and splitting ----

  /** `s.includes(t)`: `t` occurs in `s` at some position. */
  predicate Contains(s: string, t: string)
  {
    exists i :: 0 <= i <= |s| && OccursAt(s, t, i)
  }

  /** `t` occurs in `s` starting at position `i`. */
  predicate OccursAt(s: string, t: string, i: int)
  {
    0 <= i <= |s| - |t| && s[i..i + |t|] == t
  }

  /** Dropping a prefix leaves what followed it. */
  lemma DropAppend(p: string, x: string)
    ensures (p + x)[|p|..] == x
  {
  }

  /** `s.startsWith(t)`. */
  predicate StartsWith(s: string, t: string)
  {
    |t| <= |s| && s[..|t|] == t
  }

  predicate EndsWith(s: string, t: string)
  {
    |t| <= |s| && s[|s| - |t|..] == t
  }

  lemma AffixesOfAppend(x: string, y: string)
    ensures StartsWith(x + y, x) && EndsWith(x + y, y)
  {
    assert (x + y)[..|x|] == x;
    assert (x + y)[|x + y| - |y|..] == y;
  }

  /** The position of the first `c` in `s`. */
  function IndexOf(s: string, c: char): (i: nat)
    requires c in s
    ensures i < |s| && s[i] == c && c !in s[..i]
  {
    if s[0] == c then 0
    else
      var i := 1 + IndexOf(s[1..], c);
      assert s[..i] == [s[0]] + s[1..][..i - 1];
      i
  }

  /** The pieces joined back together with `sep` between neighbours. */
  function Join(pieces: seq<string>, sep: char): string
    requires |pieces| >= 1
  {
    if |pieces| == 1 then pieces[0] else pieces[0] + [sep] + Join(pieces[1..], sep)
  }

  /**
   * `s.split(sep)` for a one-character separator: the maximal runs of `s`
   * between separators, empty runs included. There is always at least one
   * piece, no piece holds the separator, and joining the pieces with the
   * separator gives `s` back.
   */
  function Split(s: string, sep: char): (pieces: seq<string>)
    ensures |pieces| >= 1
    ensures forall i :: 0 <= i < |pieces| ==> sep !in pieces[i]
    ensures Join(pieces, sep) == s
    decreases |s|
  {
    if sep !in s then [s]
    else
      var i := IndexOf(s, sep);
      var rest := Split(s[i + 1..], sep);
      assert s == s[..i] + [sep] + s[i + 1..];
      [s[..i]] + rest
  }
}

=== FILE: time_mileage.dfy ===
/**
 * Date and mileage arithmetic behind the deadline windows: strict
 * `YYYY-MM-DD` parsing, clamping of purchase dates to "today", whole elapsed
 * days, the distance driven since purchase and the `D-N` / `남은 Nkm` labels.
 *
 * "Today" is a parameter. Dates are calendar triples (local midnight) and are
 * compared and subtracted through their day number, a count of days from a
 * fixed origin.
 */
module TimeMileage {
  import opened Wrappers
  import opened Text

  /** A calendar date at local midnight. `month` runs 1..12 (JavaScript's `getMonth() + 1`). */
  datatype Date = Date(year: int, month: int, day: int)

  /**
   * A day countdown: days left (negative once passed) and its label. The
   * source's `label` field is called `text` here, `label` being a Dafny keyword.
   */
  datatype DDay = DDay(daysLeft: int, text: string)

  /** A distance countdown: kilometres left, absent when the distance driven is unknown, and its label (`text`). */
  datatype KmWindow = KmWindow(kmLeft: Option<int>, text: string)

  // ---- The proleptic Gregorian calendar that JavaScript's Date follows ----

  predicate IsLeapYear(y: int)
  {
    y % 4 == 0 && (y % 100 != 0 || y % 400 == 0)
  }

  function DaysInYear(y: int): int
  {
    if IsLeapYear(y) then 366 else 365
  }

  function DaysInMonth(y: int, m: int): int
    requires 1 <= m <= 12
  {
    if m == 2 then (if IsLeapYear(y) then 29 else 28)
    else if m == 4 || m == 6 || m == 9 || m == 11 then 30
    else 31
  }

  predicate IsCalendarDate(dt: Date)
  {
    1 <= dt.month <= 12 && 1 <= dt.day <= DaysInMonth(dt.year, dt.month)
  }

  /** Days in the years before year `y` since the origin (1 January of year 1 is day 1). */
  function DaysBeforeYear(y: int): int
  {
    var p := y - 1;
    365 * p + p / 4 - p / 100 + p / 400
  }

  /** Days in the months of year `y` before month `m`. */
  function DaysBeforeMonth(y: int, m: int): int
    requires 1 <= m <= 12
  {
    [0, 31, 59, 90, 120, 151, 181, 212, 243, 273, 304, 334][m - 1]
    + (if m > 2 && IsLeapYear(y) then 1 else 0)
  }

  /** A month ends within its year. */
  lemma MonthFitsYear(y: int, m: int)
    requires 1 <= m <= 12
    ensures DaysBeforeMonth(y, m) + DaysInMonth(y, m) <= DaysInYear(y)
  {
  }

  /**
   * The day number of a date: the time value of its local midnight, in whole
   * days. A calendar date's number lies among the days of its own year.
   */
  function DayNumber(dt: Date): (n: int)
    requires 1 <= dt.month <= 12
    ensures IsCalendarDate(dt) ==>
              DaysBeforeYear(dt.year) < n <= DaysBeforeYear(dt.year) + DaysInYear(dt.year)
  {
    MonthFitsYear(dt.year, dt.month);
    DaysBeforeYear(dt.year) + DaysBeforeMonth(dt.year, dt.month) + dt.day
  }

  /** Whether `a` comes before `b` in the calendar: by year, then month, then day. */
  predicate Before(a: Date, b: Date)
  {
    a.year < b.year
    || (a.year == b.year && (a.month < b.month || (a.month == b.month && a.day < b.day)))
  }

  /** Each month starts where the one before it ends. */
  lemma MonthStep(y: int, m: int)
    requires 1 <= m < 12
    ensures DaysBeforeMonth(y, m + 1) == DaysBeforeMonth(y, m) + DaysInMonth(y, m)
  {
  }

  /** A later month of the same year starts after an earlier one ends. */
  lemma {:induction false} MonthsOrdered(y: int, m1: int, m2: int)
    requires 1 <= m1 < m2 <= 12
    ensures DaysBeforeMonth(y, m1) + DaysInMonth(y, m1) <= DaysBeforeMonth(y, m2)
    decreases m2 - m1
  {
    MonthStep(y, m1);
    if m1 + 1 < m2 {
      MonthsOrdered(y, m1 + 1, m2);
    }
  }

  /** A later year starts after an earlier one ends. */
  lemma {:induction false} YearsOrdered(y1: int, y2: int)
    requires y1 < y2
    ensures DaysBeforeYear(y1) + DaysInYear(y1) <= DaysBeforeYear(y2)
    decreases y2 - y1
  {
    YearStep(y1);
    if y1 + 1 < y2 {
      YearsOrdered(y1 + 1, y2);
    }
  }

  /**
   * Day numbers order calendar dates as the calendar does, so comparing the
   * time values of two local midnights compares the dates.
   */
  lemma DayNumberOrdersDates(a: Date, b: Date)
    requires IsCalendarDate(a) && IsCalendarDate(b)
    ensures DayNumber(a) < DayNumber(b) <==> Before(a, b)
    ensures DayNumber(a) == DayNumber(b) <==> a == b
  {
    if a.year < b.year {
      YearsOrdered(a.year, b.year);
    } else if b.year < a.year {
      YearsOrdered(b.year, a.year);
    } else if a.month < b.month {
      MonthsOrdered(a.year, a.month, b.month);
    } else if b.month < a.month {
      MonthsOrdered(a.year, b.month, a.month);
    }
  }

  /** The calendar day after `dt`. */
  function NextDay(dt: Date): (r: Date)
    requires IsCalendarDate(dt)
    ensures IsCalendarDate(r)
  {
    if dt.day < DaysInMonth(dt.year, dt.month) then Date(dt.year, dt.month, dt.day + 1)
    else if dt.month < 12 then Date(dt.year, dt.month + 1, 1)
    else Date(dt.year + 1, 1, 1)
  }

  /** Days before year `y`, counted one year at a time from year 1. */
  ghost function DaysBeforeYearByCount(y: int): int
    requires y >= 1
  {
    if y == 1 then 0 else DaysBeforeYearByCount(y - 1) + DaysInYear(y - 1)
  }

  /** Which of the leap-year divisors the year `q` adds to the running counts. */
  lemma DivSteps(q: int)
    ensures q / 4 - (q - 1) / 4 == (if q % 4 == 0 then 1 else 0)
    ensures q / 100 - (q - 1) / 100 == (if q % 100 == 0 then 1 else 0)
    ensures q / 400 - (q - 1) / 400 == (if q % 400 == 0 then 1 else 0)
  {
  }

  lemma DivisibilityChain(q: int)
    ensures q % 400 == 0 ==> q % 100 == 0
    ensures q % 100 == 0 ==> q % 4 == 0
  {
    if q % 400 == 0 {
      var a := q / 400;
      assert q == 100 * (4 * a);
      assert q / 100 == 4 * a;
    }
    if q % 100 == 0 {
      var b := q / 100;
      assert q == 4 * (25 * b);
      assert q / 4 == 25 * b;
    }
  }

  /** Consecutive years start `DaysInYear` days apart. */
  lemma YearStep(y: int)
    ensures DaysBeforeYear(y + 1) == DaysBeforeYear(y) + DaysInYear(y)
  {
    DivSteps(y);
    DivisibilityChain(y);
  }

  /** The closed form agrees with counting the days of every earlier year. */
  lemma {:induction false} DaysBeforeYearCounts(y: int)
    requires y >= 1
    ensures DaysBeforeYear(y) == DaysBeforeYearByCount(y)
  {
    if y > 1 {
      DaysBeforeYearCounts(y - 1);
      YearStep(y - 1);
    }
  }

  /** Day numbers advance by exactly one from each calendar day to the next. */
  lemma NextDayNumber(dt: Date)
    requires IsCalendarDate(dt)
    ensures DayNumber(NextDay(dt)) == DayNumber(dt) + 1
  {
    if dt.day == DaysInMonth(dt.year, dt.month) && dt.month == 12 {
      YearStep(dt.year);
    }
  }

  // ---- Parsing and formatting ----

  /** The shape `^(\d{4})-(\d{2})-(\d{2})$`. */
  predicate IsDateShaped(s: string)
  {
    |s| == 10 && AllDigits(s[0..4]) && s[4] == '-' && AllDigits(s[5..7]) && s[7] == '-'
    && AllDigits(s[8..10])
  }

  /** The three numbers of a date-shaped string. */
  function DateFields(s: string): Date
    requires IsDateShaped(s)
  {
    Date(DigitsValue(s[0..4]), DigitsValue(s[5..7]), DigitsValue(s[8..10]))
  }

  /**
   * Whether `new Date(y, m - 1, d)` reads back as year `y`, month `m` and day
   * `d`. The constructor maps years 0..99 to 1900..1999 and rolls a month or
   * day outside its range over into a neighbouring month or year, so the date
   * reads back exactly when the year is at least 100 and the triple is a
   * calendar date.
   */
  predicate ReadsBack(dt: Date)
  {
    dt.year >= 100 && IsCalendarDate(dt)
  }

  /**
   * `parseLocalDate`: the date written as `YYYY-MM-DD`, or nothing for an empty
   * text, a text of another shape, a triple that is not a calendar date and a
   * year below 100.
   */
  function ParseLocalDate(s: string): (r: Option<Date>)
    ensures r.Some? ==> ReadsBack(r.value) && r.value.year <= 9999
    ensures r.Some? <==> IsDateShaped(s) && ReadsBack(DateFields(s))
  {
    if s == [] then None
    else if !IsDateShaped(s) then None
    else
      var dt := DateFields(s);
      DigitsValueBound(s[0..4]);
      if ReadsBack(dt) then Some(dt) else None
  }

  /** A date written as `YYYY-MM-DD` with zero padding. */
  function FormatDate(dt: Date): (s: string)
    requires 0 <= dt.year <= 9999 && IsCalendarDate(dt)
    ensures IsDateShaped(s) && DateFields(s) == dt
  {
    var s := Padded(dt.year, 4) + "-" + Padded(dt.month, 2) + "-" + Padded(dt.day, 2);
    assert s[0..4] == Padded(dt.year, 4);
    assert s[5..7] == Padded(dt.month, 2);
    assert s[8..10] == Padded(dt.day, 2);
    s
  }

  /** Every date the parser can produce is read back from its own formatting. */
  lemma FormatThenParse(dt: Date)
    requires ReadsBack(dt) && dt.year <= 9999
    ensures ParseLocalDate(FormatDate(dt)) == Some(dt)
  {
  }

  /** A text the parser accepts is exactly the formatting of the date it yields. */
  lemma ParseThenFormat(s: string)
    requires ParseLocalDate(s).Some?
    ensures FormatDate(ParseLocalDate(s).value) == s
  {
    var dt := ParseLocalDate(s).value;
    assert dt == DateFields(s);
    PaddedOfDigits(s[0..4]);
    PaddedOfDigits(s[5..7]);
    PaddedOfDigits(s[8..10]);
    assert Padded(dt.year, 4) == s[0..4];
    assert Padded(dt.month, 2) == s[5..7];
    assert Padded(dt.day, 2) == s[8..10];
    assert s == s[0..4] + "-" + s[5..7] + "-" + s[8..10];
  }

  // The ways `parseLocalDate` yields nothing, on concrete texts, beside a leap day it accepts.

  lemma ParseRejectsEmptyAndMisshaped()
    ensures ParseLocalDate("") == None
    ensures ParseLocalDate("2024/01/05") == None
    ensures ParseLocalDate("2024-1-05") == None
  {
    assert !IsDateShaped("2024/01/05");
  }

  lemma ParseRejectsMonth13()
    ensures ParseLocalDate("2024-13-01") == None
  {
    FieldsOf("2024-13-01");
  }

  lemma ParseRejectsFebruary30()
    ensures ParseLocalDate("2024-02-30") == None
  {
    FieldsOf("2024-02-30");
  }

  lemma ParseRejectsLeapDayOfCommonYear()
    ensures ParseLocalDate("2023-02-29") == None
  {
    FieldsOf("2023-02-29");
  }

  lemma ParseRejectsTwoDigitYear()
    ensures ParseLocalDate("0099-01-01") == None
  {
    FieldsOf("0099-01-01");
  }

  lemma ParseAcceptsLeapDay()
    ensures ParseLocalDate("2024-02-29") == Some(Date(2024, 2, 29))
  {
    FieldsOf("2024-02-29");
  }

  /** The fields of a date-shaped text, digit by digit. */
  lemma FieldsOf(s: string)
    requires IsDateShaped(s)
    ensures DateFields(s) == Date(
      ((DigitValue(s[0]) * 10 + DigitValue(s[1])) * 10 + DigitValue(s[2])) * 10 + DigitValue(s[3]),
      DigitValue(s[5]) * 10 + DigitValue(s[6]),
      DigitValue(s[8]) * 10 + DigitValue(s[9]))
  {
    var y, m, d := s[0..4], s[5..7], s[8..10];
    assert DigitsValue(y[..1]) == DigitValue(s[0]) by { assert y[..1][..0] == []; }
    assert DigitsValue(y[..2]) == DigitValue(s[0]) * 10 + DigitValue(s[1]) by { assert y[..2][..1] == y[..1]; }
    assert DigitsValue(y[..3]) == DigitsValue(y[..2]) * 10 + DigitValue(s[2]) by {
      assert y[..3][..2] == y[..2];
    }
    assert DigitsValue(y) == DigitsValue(y[..3]) * 10 + DigitValue(s[3]);
    assert DigitsValue(m[..1]) == DigitValue(s[5]) by { assert m[..1][..0] == []; }
    assert DigitsValue(m) == DigitsValue(m[..1]) * 10 + DigitValue(s[6]);
    assert DigitsValue(d[..1]) == DigitValue(s[8]) by { assert d[..1][..0] == []; }
    assert DigitsValue(d) == DigitsValue(d[..1]) * 10 + DigitValue(s[9]);
  }

  // ---- Elapsed days ----

  /**
   * `normalizeDate`: the parsed purchase date, with an unparseable text and a
   * date after today both replaced by today.
   */
  function NormalizeDate(s: string, today: Date): (r: Date)
    requires IsCalendarDate(today)
    ensures IsCalendarDate(r)
    ensures DayNumber(r) <= DayNumber(today)
    ensures ParseLocalDate(s).None? ==> r == today
    ensures ParseLocalDate(s).Some? ==>
              r == if DayNumber(ParseLocalDate(s).value) > DayNumber(today) then today
                   else ParseLocalDate(s).value
  {
    var p := match ParseLocalDate(s) case Some(dt) => dt case None => today;
    if DayNumber(p) > DayNumber(today) then today else p
  }

  /**
   * `daysSince`: whole days from the normalised purchase date to today. Never
   * negative; zero for an unparseable text and for a future date.
   */
  function DaysSince(s: string, today: Date): (n: nat)
    requires IsCalendarDate(today)
    ensures ParseLocalDate(s).None? ==> n == 0
    ensures ParseLocalDate(s).Some? ==>
              n == if DayNumber(ParseLocalDate(s).value) > DayNumber(today) then 0
                   else DayNumber(today) - DayNumber(ParseLocalDate(s).value)
  {
    DayNumber(today) - DayNumber(NormalizeDate(s, today))
  }

  /** Today's own date, written as `YYYY-MM-DD`, is zero days old. */
  lemma DaysSinceToday(today: Date)
    requires ReadsBack(today) && today.year <= 9999
    ensures DaysSince(FormatDate(today), today) == 0
  {
    FormatThenParse(today);
  }

  /** A purchase on the previous calendar day is one day old. */
  lemma DaysSinceYesterday(yesterday: Date)
    requires ReadsBack(yesterday) && yesterday.year <= 9998
    ensures DaysSince(FormatDate(yesterday), NextDay(yesterday)) == 1
  {
    FormatThenParse(yesterday);
    NextDayNumber(yesterday);
  }

  // ---- Labels ----

  /**
   * `ddayLabel`: `D-` and the days remaining while `elapsed <= target`,
   * otherwise `D+` and the days overdue.
   */
  function DdayLabel(target: int, elapsed: int): (r: string)
    ensures |r| >= 3 && r[0] == 'D' && IsDecimal(r[2..])
    ensures r[1] == '-' <==> elapsed <= target
    ensures r[1] == '-' || r[1] == '+'
    ensures DigitsValue(r[2..]) == if elapsed <= target then target - elapsed else elapsed - target
    ensures r[2..] == NatToString(if elapsed <= target then target - elapsed else elapsed - target)
  {
    var remain := target - elapsed;
    var n := if remain >= 0 then remain else -remain;
    var r := (if remain >= 0 then "D-" else "D+") + NatToString(n);
    assert r[2..] == NatToString(n);
    r
  }

  /**
   * `mileageDelta`: kilometres driven since purchase, never negative, or
   * nothing when the purchase reading is missing.
   */
  function MileageDelta(purchase: Option<int>, current: int): (r: Option<nat>)
    ensures r.None? <==> purchase.None?
    ensures purchase.Some? && purchase.value <= current ==> r == Some(current - purchase.value)
    ensures purchase.Some? && purchase.value > current ==> r == Some(0)
  {
    match purchase
    case None => None
    case Some(p) => Some(if current - p > 0 then current - p else 0)
  }

  /**
   * `kmLeftLabel`: the kilometres left under `limit`, labelled `남은 Nkm`, or
   * the excess, labelled `초과 Nkm`; `미입력` when the distance is unknown.
   */
  function KmLeftLabel(limit: int, used: Option<int>): (w: KmWindow)
    ensures used.None? <==> w.kmLeft.None?
    ensures used.None? ==> w.text == "미입력"
    ensures used.Some? ==> w.kmLeft == Some(limit - used.value)
    ensures used.Some? && used.value <= limit ==>
              exists n: nat :: n == limit - used.value && w.text == "남은 " + NatToString(n) + "km"
    ensures used.Some? && used.value > limit ==>
              exists n: nat :: n == used.value - limit && w.text == "초과 " + NatToString(n) + "km"
  {
    match used
    case None => KmWindow(None, "미입력")
    case Some(u) =>
      var left := limit - u;
      KmWindow(Some(left), if left >= 0 then "남은 " + NatToString(left) + "km"
                           else "초과 " + NatToString(-left) + "km")
  }

  // ---- Deadline windows ----

  /**
   * `window30d`, `window3d`, `window7d` and `window90d`: the days left of a
   * `limit`-day window opened on the purchase date, and its D-day label.
   */
  function DayWindow(limit: int, purchaseDate: string, today: Date): (w: DDay)
    requires IsCalendarDate(today)
    ensures w.daysLeft <= limit
    ensures w.daysLeft == limit - DaysSince(purchaseDate, today)
    ensures w.text == DdayLabel(limit, DaysSince(purchaseDate, today))
    ensures w.text[1] == '-' <==> w.daysLeft >= 0
  {
    var elapsed := DaysSince(purchaseDate, today);
    DDay(limit - elapsed, DdayLabel(limit, elapsed))
  }

  function Window30d(purchaseDate: string, today: Date): DDay
    requires IsCalendarDate(today)
  {
    DayWindow(30, purchaseDate, today)
  }

  function Window3d(purchaseDate: string, today: Date): DDay
    requires IsCalendarDate(today)
  {
    DayWindow(3, purchaseDate, today)
  }

  function Window7d(purchaseDate: string, today: Date): DDay
    requires IsCalendarDate(today)
  {
    DayWindow(7, purchaseDate, today)
  }

  function Window90d(purchaseDate: string, today: Date): DDay
    requires IsCalendarDate(today)
  {
    DayWindow(90, purchaseDate, today)
  }

  /** `window2000km`: the 2,000 km window measured from the purchase reading. */
  function Window2000km(purchase: Option<int>, current: int): (w: KmWindow)
    ensures w.kmLeft.None? <==> purchase.None?
    ensures w.kmLeft.Some? ==> w.kmLeft.value <= 2000
    ensures w == KmLeftLabel(2000, MileageDelta(purchase, current))
  {
    KmLeftLabel(2000, MileageDelta(purchase, current))
  }
}

=== FILE: utils.dfy ===
/**
 * Day arithmetic on time values used by the pages: whole days between two
 * instants (rounded down) and the "days left" text of a deadline (rounded up).
 */
module Utils {
  import opened Wrappers
  import opened Text

  /** Milliseconds in a day. */
  const DAY_MS: int := 24 * 60 * 60 * 1000

  /** A Date's time value in milliseconds; `Invalid` is an Invalid Date, whose time value is NaN. */
  datatype Instant = Valid(ms: int) | Invalid

  /**
   * `daysBetween(a, b)`: the whole days from `a` to `b`, rounded down, so
   * negative when `b` is before `a`; NaN (none) when either date is invalid.
   */
  function DaysBetween(a: Instant, b: Instant): (r: Option<int>)
    ensures r.None? <==> a.Invalid? || b.Invalid?
    ensures r.Some? ==> r.value * DAY_MS <= b.ms - a.ms < (r.value + 1) * DAY_MS
    ensures r.Some? ==> (r.value < 0 <==> b.ms < a.ms)
  {
    if a.Invalid? || b.Invalid? then None else Some((b.ms - a.ms) / DAY_MS)
  }

  /** The days from `now` to `due`, rounded up (`Math.ceil`). */
  function DaysLeft(now: int, due: int): (n: int)
    ensures (n - 1) * DAY_MS < due - now <= n * DAY_MS
  {
    -((now - due) / DAY_MS)
  }

  const NOT_AVAILABLE := "\U{2014}"
  const DUE_TODAY := "오늘 마감"

  /**
   * `leftStr`: "—" for an invalid date; otherwise the rounded-up days left,
   * as `마감 지남 (N일)` once passed, `오늘 마감` on the day and `N일 남음`
   * before.
   */
  function LeftStr(now: Instant, due: Instant): (r: string)
    ensures r == NOT_AVAILABLE <==> now.Invalid? || due.Invalid?
    ensures now.Valid? && due.Valid? ==>
              var n := DaysLeft(now.ms, due.ms);
              (n < 0 ==> r == "마감 지남 (" + NatToString(-n) + "일)")
              && (r == DUE_TODAY <==> n == 0)
              && (n > 0 ==> r == NatToString(n) + "일 남음")
  {
    if now.Invalid? || due.Invalid? then NOT_AVAILABLE
    else
      var left := DaysLeft(now.ms, due.ms);
      if left < 0 then "마감 지남 (" + NatToString(-left) + "일)"
      else if left == 0 then DUE_TODAY
      else
        var r := NatToString(left) + "일 남음";
        assert IsDigit(r[0]) && !IsDigit(DUE_TODAY[0]);
        r
  }

  /** Both functions give zero for the same instant. */
  lemma SameInstantIsZero(t: int)
    ensures DaysBetween(Valid(t), Valid(t)) == Some(0)
    ensures LeftStr(Valid(t), Valid(t)) == DUE_TODAY
  {
  }

  /**
   * The rounded-up days left to `due` are the rounded-down days from `due`
   * back to now, negated; they agree with the rounded-down count exactly on
   * whole-day distances and exceed it by one otherwise.
   */
  lemma DaysLeftIsNegatedDaysBetween(now: int, due: int)
    ensures DaysLeft(now, due) == -DaysBetween(Valid(due), Valid(now)).value
    ensures DaysLeft(now, due) - DaysBetween(Valid(now), Valid(due)).value
              == if (due - now) % DAY_MS == 0 then 0 else 1
  {
    var f := DaysBetween(Valid(now), Valid(due)).value;
    var c := DaysLeft(now, due);
    assert f * DAY_MS <= due - now < (f + 1) * DAY_MS;
    assert (c - 1) * DAY_MS < due - now <= c * DAY_MS;
    assert due - now == f * DAY_MS + (due - now) % DAY_MS;
    if (due - now) % DAY_MS == 0 {
      assert c == f;
    } else {
      assert c == f + 1;
    }
  }
}

=== FILE: wrappers.dfy ===
/** Optional values and error results shared by the modules of this model. */
module Wrappers {
  /** A value that may be absent (JavaScript's `null`/`undefined`). */
  datatype Option<+T> = None | Some(value: T)

  /** The outcome of an operation that may fail with an error of type `E`. */
  datatype Result<+T, +E> = Ok(value: T) | Err(error: E)
}
